=== FILE: README.md ===
# Student-records backend: a Dafny model

This project models the backend of a small student-records service. It has
students (`alumnos`), subjects (`materias`), grade rows (`notas`) with three
scores each, the `/login` and `/register` routes, and two token gates:
- the `verifyToken` middleware;
- the passport JWT strategy, which guards every protected route.

Each route handler is a pure function from a store and the request's
parameters to a `Response`. A `Response` carries the new store, the status
and the body.

- **Store** (`db.dfy`). There is one finite map per table, keyed by the
  row's id, and one AUTO_INCREMENT counter per table. The flag
  `foreignKeys` says whether the database enforces foreign keys on `notas`;
  the schema is not part of the code, so both cases are modelled.
- **Faults.** `Valid` collects the invariants the routes keep: every key is
  below its counter, emails are unique, every score is in [0, 10], and with
  foreign keys no grade is orphaned. A query that throws is modelled by
  `Faults`: `FailAt(k)` means query `k` of the request throws and the
  handler's `catch` answers 500. The passport user lookup is query 0 of a
  protected request, and the handler's queries follow it.
- **Validation** (`http.dfy`, `numerals.dfy`, `materias.dfy`). This covers
  express-validator's `isInt()`/`toInt()` on ids, `isFloat({min: 0,
  max: 10})` on scores, and `notEmpty().isAlpha('es-ES', {ignore: ' '})` on
  subject names. `handleValidationErrors` turns a non-empty error list into
  a 400.
- **Routers** (`alumnos.dfy`, `materias.dfy`, `notas.dfy`, `auth.dfy`).
  There is one function per route. Lemmas cover:
  - cascade deletes;
  - 404 on missing rows;
  - the pending-subject and pending-student complements;
  - the averages;
  - the create/get/delete round trips;
  - register-then-login.
- **Libraries** (`crypto.dfy`). bcrypt and jsonwebtoken are records of
  functions. `Sound()` predicates state the facts the application relies
  on: a password matches its own digest, and a token verifies with its own
  payload under the secret that signed it. Expiry follows section 4.1.4 of
  RFC 7519: a token is refused once `now >= exp`, where `exp = iat + 14400`.
- **Gates** (`gates.dfy`).
  - `verifyToken` takes the second space-separated field of the header.
  - passport extracts a Bearer token. The credential syntax is section 2.1
    of RFC 6750.
  - `api.dfy` puts the passport gate in front of every protected handler
    and proves that a rejected request never reaches the handler.

The clock (`now`, in whole seconds), the bcrypt salt and `JWT_SECRET` are
parameters. The SQL is replaced by its effect on the maps. Where a query's
"first row" matters (`rows[0]`), it is the row with the least primary key,
which is InnoDB's scan order for these unordered selects.

Two behaviours of the code worth noting:
- A token is accepted while `now < exp` and refused at exactly four hours.
- Every protected route in the routers uses passport, which answers 401 for
  both a missing and an invalid token. Only `verifyToken` answers 403, and
  no route uses it.

## Model

| member | source | states |
|---|---|---|
| Http.HandleValidationErrors | backend/routes/materias.js:9-15 | The request is halted with 400 and the full message list exactly when the list is non-empty; the store is untouched. |
| Http.IntErrors | backend/routes/notas.js:33 | No message exactly when the value matches `isInt` (`^[-+]?[0-9]+$`). |
| Http.ScoreErrors | backend/routes/notas.js:57-59 | No message exactly when the score is present and within [0, 10]. |
| Numerals.ParseParam | backend/routes/notas.js:33 | `isInt().toInt()` yields a value exactly when the text passes `isInt`. |
| Numerals.ShowRoundTrip | backend/routes/notas.js:33 | The decimal spelling of any integer id passes `isInt` and converts back to the same id. |
| Numerals.LeadingZero | backend/routes/notas.js:33 | Leading zeros are accepted and do not change the value ("007" is 7). |
| Db.Average | backend/routes/notas.js:141 | A row's average lies in [0, 10] when its scores do, and equals the common score when all three are equal. |
| Db.AtMostOneUser | backend/routes/auth.js:61-68 | While emails are unique, at most one user row matches an email. |
| Alumnos.List | backend/routes/alumnos.js:8-17 | 200 with every student row unless the query throws (500); never writes. |
| Alumnos.Get | backend/routes/alumnos.js:20-32 | 200 with the row exactly when the id exists, 404 exactly when it does not, 500 on a store error; never writes. |
| Alumnos.Create | backend/routes/alumnos.js:35-49 | A missing or empty `nombre` or `apellido` is a 400 with the store unchanged; otherwise exactly one row is added under the next id with the given fields (201). |
| Alumnos.Update | backend/routes/alumnos.js:52-73 | An empty field is a 400 and a missing id a 404, both with no change; on success only that row's `nombre` and `apellido` change, and every other row and all grades stay as they were. |
| Alumnos.Delete | backend/routes/alumnos.js:76-94 | The student's grades are deleted first, then the student; a missing student is a 404, yet its grades are already gone; a failure of the second query leaves the grades deleted. |
| Alumnos.Grades | backend/routes/alumnos.js:97-122 | One row per grade of the student whose subject exists (inner joins), each with its scores, names and `(n1+n2+n3)/3`; 200 exactly when the query succeeds, the student exists and one of its grades has an existing subject, 404 exactly when the query succeeds and there is no such grade. |
| Alumnos.OverallAverage | backend/routes/alumnos.js:125-147 | 200 with the mean of the per-grade averages exactly when the query succeeds and the student exists and has grades; 404 exactly when the query succeeds and the student is missing or has no grades. |
| Alumnos.PendingSubjects | backend/routes/alumnos.js:150-171 | Exactly the subjects in which the student has no grade, with their names; 200 exactly when the query succeeds and such a subject exists, 404 exactly when the query succeeds and that set is empty. |
| Alumnos.CreateAddsOneRow | backend/routes/alumnos.js:42-44 | On a valid store a create keeps it valid and adds one row under a fresh key. |
| Alumnos.UpdateDeletePreserveValid | backend/routes/alumnos.js:79-83 | Updates and cascading deletes keep the store valid; no grade is left pointing at a deleted student. |
| Alumnos.DeleteMissingIsNoop | backend/routes/alumnos.js:80-87 | With foreign keys, deleting a missing student is a 404 that changes nothing. |
| Alumnos.GradesGoneAfterDelete | backend/routes/alumnos.js:80-83 | After a delete, no grade has that `alumno_id`: both per-student reports answer 404. |
| Alumnos.OverallAverageInScale | backend/routes/alumnos.js:128-141 | The overall average of a valid store is in [0, 10]. |
| Alumnos.AverageAgreesWithReport | backend/routes/alumnos.js:100-141 | With foreign keys, the report and the overall average exist together, the report covers every grade of the student, and the overall average is the mean of the report's averages. |
| Alumnos.SingleGradeAverage | backend/routes/alumnos.js:131 | A student whose only grade is (6, 7, 8) has overall average 7. |
| Materias.IsAlphaEsMeansAcceptable | backend/routes/materias.js:54-56 | `isAlpha('es-ES', {ignore: ' '})` accepts exactly the names made of letters and spaces with at least one letter. |
| Materias.NameErrors | backend/routes/materias.js:54-56 | No message exactly for an acceptable name; a missing name gets both messages. |
| Materias.BlankNameRejected | backend/routes/materias.js:54-56 | Every non-empty name made only of spaces passes `notEmpty` but fails the letters check, so it gets exactly the letters message. |
| Materias.List | backend/routes/materias.js:18-26 | 200 with every subject unless the query throws; never writes. |
| Materias.Get | backend/routes/materias.js:29-47 | A non-integer id is a 400 before the store is read; then the row exactly when it exists, 404 exactly when it does not. |
| Materias.Create | backend/routes/materias.js:50-69 | An unacceptable name is a 400 with no write; otherwise exactly one subject is added under the next id. |
| Materias.Update | backend/routes/materias.js:72-96 | A bad id or name is a 400, a missing id a 404, both with no change; on success only that subject's `nombre` changes. |
| Materias.Delete | backend/routes/materias.js:99-120 | The subject's grades are deleted first, then the subject; 404 when no subject row existed. |
| Materias.Students | backend/routes/materias.js:123-152 | 400 exactly for a non-integer id; one row per grade in the subject whose student exists, with its average; 200 exactly when the query succeeds and such a grade exists, 404 exactly when the query succeeds and there is none. |
| Materias.PendingStudents | backend/routes/materias.js:155-182 | 400 exactly for a non-integer id; exactly the students with no grade in the subject; 200 exactly when the query succeeds and such a student exists, 404 exactly when the query succeeds and that set is empty. |
| Materias.CreatePreservesValid | backend/routes/materias.js:62 | A create keeps the store valid: the new subject takes a key no row had. |
| Materias.UpdatePreservesValid | backend/routes/materias.js:86 | A rename keeps the store valid. |
| Materias.DeletePreservesValid | backend/routes/materias.js:107-108 | The cascading delete keeps the store valid: no grade is left pointing at the deleted subject. |
| Materias.DeleteMissingIsNoop | backend/routes/materias.js:107-112 | With foreign keys, deleting a missing subject is a 404 that changes nothing. |
| Materias.RosterGoneAfterDelete | backend/routes/materias.js:107-108 | After a delete, no grade has that `materia_id`: the subject's roster answers 404. |
| Notas.ScoresErrors | backend/routes/notas.js:57-59 | No message exactly when all three scores are present and in [0, 10]. |
| Notas.List | backend/routes/notas.js:19-27 | 200 with every grade row unless the query throws; never writes. |
| Notas.Get | backend/routes/notas.js:30-48 | A non-integer id is a 400; then the row exactly when it exists, 404 exactly when it does not. |
| Notas.Create | backend/routes/notas.js:51-75 | 400 with no insert unless both ids are integers and every score is in [0, 10]; existence of the student and subject is not checked, and only foreign keys can refuse the insert (500, no row, but the AUTO_INCREMENT counter still moves on); success adds exactly one row with the given fields and answers its new id. |
| Notas.Update | backend/routes/notas.js:78-105 | Requires all three scores in [0, 10]; a missing id is a 404 with no change; on success only `nota1..3` of that row change, and its `alumno_id` and `materia_id` do not. |
| Notas.Delete | backend/routes/notas.js:108-126 | Removes exactly the row with that id and no other; a missing id is a 404 with no change. |
| Notas.PairAverage | backend/routes/notas.js:129-153 | 400 exactly when an id is not an integer; the average of the first matching row (least id) only; 200 exactly when the query succeeds and a row matches the pair, 404 exactly when the query succeeds and none does. |
| Notas.CreateThenGet | backend/routes/notas.js:65-69 | The row just created is read back under the id the response carries. |
| Notas.CreateThenDelete | backend/routes/notas.js:65-69 | Deleting the row just created restores the previous store, except for the advanced counter. |
| Notas.UpdateThenGet | backend/routes/notas.js:92-95 | After an update, the row reads back with the new scores on its old student and subject. |
| Notas.CreatePreservesValid | backend/routes/notas.js:55-68 | A create keeps the store valid: the scores were validated into [0, 10], and with foreign keys the row only goes in when its student and subject exist. |
| Notas.UpdatePreservesValid | backend/routes/notas.js:82-95 | An update keeps the store valid: the new scores were validated, and the row keeps its student and subject. |
| Notas.DeletePreservesValid | backend/routes/notas.js:116 | A delete keeps the store valid. |
| Notas.PairAverageInScale | backend/routes/notas.js:140-147 | The pair average of a valid store is in [0, 10]. |
| Crypto.Issue | backend/routes/auth.js:38-42 | An issued token is non-empty and decodes, under its secret, to `{id, email}` with `iat` = now and `exp` = now + 4 h. |
| Crypto.Verify | backend/middleware/verifyToken.js:13 | Claims come back exactly for a non-empty token whose signature checks and whose `exp` is still in the future. |
| Crypto.IssuedTokenLifetime | backend/routes/auth.js:38-42 | An issued token verifies, with its own claims, exactly while fewer than four hours have passed. |
| Crypto.IssuedTokenIsB64 | backend/middleware/passport.js:8 | Every issued token has the `b64token` syntax of section 2.1 of RFC 6750. |
| Gates.SecondField | backend/middleware/verifyToken.js:10 | `split(' ')[1]` exists exactly when the header has a space; it contains no space and is the text between the first space and the next space (or the end). |
| Gates.SecondFieldExact | backend/middleware/verifyToken.js:10 | The token is `field` exactly when the header is a space-free first field, one space, `field`, and then nothing or a space; so `Bearer a b` gives `a` and `Bearer  t` gives the empty field. |
| Gates.VerifyToken | backend/middleware/verifyToken.js:3-19 | An empty or absent header is a 401; otherwise a token that is missing or fails verification is a 403; on success the principal is exactly the decoded claims. |
| Gates.VerifyTokenLifetime | backend/middleware/verifyToken.js:12-18 | `Bearer <issued token>` is let through with its claims within four hours and is a 403 afterwards. |
| Gates.SecondFieldRoundTrip | backend/middleware/verifyToken.js:10 | The second field of `<scheme> <b64token>` is the token. |
| Gates.BearerTokenExact | backend/middleware/passport.js:8 | A header yields a token exactly when it is optional whitespace, a scheme word equal to "bearer" in any case, non-empty whitespace, that token as a whole word, and then nothing or whitespace: the first match of `(\S+)\s+(\S+)`. |
| Gates.BearerRoundTrip | backend/middleware/passport.js:8 | For the scheme "Bearer" in any case, `<scheme> SP b64token` yields exactly the token. |
| Gates.GatesAgreeOnBearer | backend/middleware/verifyToken.js:10 | On `Bearer <b64token>` both gates take the same token. |
| Gates.Presented | backend/middleware/passport.js:7-10 | Claims are presented exactly when the header carries a Bearer token and that token verifies under the secret. |
| Gates.Authenticate | backend/middleware/passport.js:13-28 | No Bearer token or a failed verification is a 401; a failing lookup is a 500 and never an admission; the principal is exactly the user row whose id the token names. |
| Gates.IssuedTokenAdmitted | backend/middleware/passport.js:15-24 | A live token issued for an existing user admits exactly that user's row. |
| Gates.TokenOfMissingUserRejected | backend/middleware/passport.js:20-22 | A genuine token whose user does not exist is refused. |
| Auth.Login | backend/routes/auth.js:11-49 | A missing field is a 400; once the lookup succeeds and the email has a row, the answer is 200 exactly when the password matches the first such row's (least id's) digest, and it carries a token for exactly that row's id and the email; a wrong password for that row and an unknown email are both the 401 "Credenciales inválidas"; a failing lookup is the 500 "Error en el servidor"; the store is never modified. |
| Auth.LoginUserIsOnlyMatch | backend/routes/auth.js:20-29 | On a valid store the row a login token names is the only user with that email, so taking `rows[0]` picks no arbitrary row. |
| Auth.LoginHidesUnknownEmail | backend/routes/auth.js:25-35 | An unknown email and a password that fails against the first row of a known email get the identical 401 response. |
| Auth.Register | backend/routes/auth.js:52-103 | A missing field or an existing email is a 400 with no change; the store changes exactly on a 201 or on a failed read-back, and then holds exactly one new user with the bcrypt digest under the next id; a 201 answers a token for it; "No se pudo recuperar el usuario" is never answered; a failing lookup or insert is the 500 "Error en el servidor" with no change; if the read-back fails the answer is that 500 but the user is already written. |
| Auth.RegisterPreservesValid | backend/routes/auth.js:61-77 | Register keeps emails unique and the store valid. |
| Auth.RegisterTokenClaims | backend/routes/auth.js:92-98 | The registration token verifies to the new user's id and email for four hours. |
| Auth.RegisterThenLogin | backend/routes/auth.js:32-44 | With a sound bcrypt, logging in with the registered credentials succeeds with a token for the new user. |
| Api.Serve | backend/routes/notas.js:30-35 | A protected route's handler runs only when the passport gate admits; otherwise the gate's answer is returned with the store unchanged. |
| Api.NoHeaderUnauthorized | backend/middleware/passport.js:8 | Without an Authorization header every protected route is a 401 and nothing is written. |
| Api.LookupFailureStops | backend/middleware/passport.js:25-26 | A failing user lookup never reaches the handler: the store is unchanged and the answer is a 401 or a 500. |
| Api.ReadsNeverWrite | backend/routes/alumnos.js:8-17 | No read route, login included, changes the store. |
| Api.ServePreservesValid | backend/routes/alumnos.js:79-83 | No request, on any route and with any fault, breaks the store invariants. |
| Api.LoginTokenOpensProtectedRoutes | backend/middleware/passport.js:5-9 | The token `/login` answers is admitted by the passport gate on every protected route for that user until four hours after the login, because both read the same `JWT_SECRET` setting with the same fallback. |
| Api.GradeClearsPending | backend/routes/alumnos.js:153-159 | Recording a grade removes the subject from the student's pending list and the student from the subject's pending list. |

## Left out

- Frontend, `db.js` and `index.js`: UI code, connection setup and router mounting. `index.js` mounts only the students router. `Api.Serve` composes all routers as if each were mounted.
- `ROUND(..., 2)`: averages are exact `real` values.
- Score syntax: `isFloat` is taken as already decided. A score is `Some(x)` when its text is a number and `None` otherwise. Number formatting is not modelled.
- Non-string JSON values in any body field are not modelled: every field is a string or absent. A numeric `password`, for example, would make bcrypt throw and the route answer 500.
- Ids of the students router: they are not validated and are modelled as integers. MySQL's coercion of non-numeric text is not modelled.
- Integer width: ids and `parseInt` results are unbounded integers. Precision loss beyond 2^53 is not modelled.
- Score columns: their SQL type and precision are not modelled. Scores are stored as the exact validated `real`, so any rounding the column applies on insert or update is not visible.
- Database columns: NULL scores are not modelled, since every write supplies three validated scores. The `promedio === null` branch is therefore the no-rows branch.
- Email lookups use exact string equality. MySQL's case-insensitive collation is not modelled.
- The cascade deletes are two statements with no transaction. The model treats each request as one step, so concurrency is not modelled. A failure between the two statements is modelled: the grades stay deleted.
- Exact JSON bodies: a refusal carries its message text, while success bodies carry the rows as maps keyed by id. Key order and `console.error` logging are not modelled.
- Express's default error page for a failed passport lookup is summarised as the text "Internal Server Error".
- bcrypt and jsonwebtoken internals: hashing cost, salt generation, HMAC and base64url encoding. `bcrypt.compare` throwing on a malformed digest is not modelled.
- `db.js` creates a callback-style `mysql2` connection, while the routes `await` its `query` and destructure the rows. The model assumes the promise API (`mysql2/promise`), under which each query yields its rows or throws.
- Tokens that lack `exp` are not modelled. Every token this application signs carries one.
- Crypto.Issue: `iat` is the clock in whole seconds. The flooring of `Date.now()` is left to the caller.
- Gates.BearerTokenExact: the scheme comparison lower-cases only ASCII letters. This is exact for the word "bearer", since no other character lower-cases to its letters.
- Auth.Register: states that the digest is stored. It does not state that a digest differs from the plaintext, because that is a property of bcrypt.

=== FILE: alumnos.dfy ===
/** The `/alumnos` router: student CRUD, the cascade delete of a student's
    grades, and the three per-student aggregate queries. The router does no
    validation of `:id`; ids are the integers MySQL compares against. */
module Alumnos {
  import opened Tables
  import opened Db
  import opened Http

  const MsgListFailed := "Error al obtener alumnos"
  const MsgNotFound := "Alumno no encontrado"
  const MsgGetFailed := "Error al obtener alumno"
  const MsgRequired := "Nombre y apellido son obligatorios"
  const MsgCreated := "Alumno creado correctamente"
  const MsgCreateFailed := "Error al crear alumno"
  const MsgUpdated := "Alumno actualizado correctamente"
  const MsgUpdateFailed := "Error al actualizar alumno"
  const MsgDeleted := "Alumno y sus notas eliminados correctamente"
  const MsgDeleteFailed := "Error al eliminar alumno"
  const MsgNoGrades := "No se encontraron notas para este alumno"
  const MsgGradesFailed := "Error al obtener notas del alumno"
  const MsgNoAverage := "No hay notas para este alumno"
  const MsgAverageFailed := "Error al calcular promedio"
  const MsgNothingPending := "El alumno tiene notas en todas las materias"
  const MsgPendingFailed := "Error al obtener materias pendientes"

  /** `GET /`: every student. */
  function List(s: Store, f: Faults): (r: Response)
    ensures f.Fails(0) ==> r == Response(s, ServerError, Error(MsgListFailed))
    ensures r.store == s
    ensures r.status == Ok <==> !f.Fails(0)
    ensures r.status == Ok ==> r.body == Alumnos(s.alumnos)
  {
    if f.Fails(0) then Response(s, ServerError, Error(MsgListFailed))
    else Response(s, Ok, Alumnos(s.alumnos))
  }

  /** `GET /:id`: the row if present, 404 otherwise. */
  function Get(s: Store, id: int, f: Faults): (r: Response)
    ensures f.Fails(0) ==> r == Response(s, ServerError, Error(MsgGetFailed))
    ensures r.store == s
    ensures r.status == Ok <==> !f.Fails(0) && id in s.alumnos
    ensures r.status == NotFound <==> !f.Fails(0) && id !in s.alumnos
    ensures r.status == Ok ==> r.body == OneAlumno(id, s.alumnos[id])
  {
    if f.Fails(0) then Response(s, ServerError, Error(MsgGetFailed))
    else if id !in s.alumnos then Response(s, NotFound, Error(MsgNotFound))
    else Response(s, Ok, OneAlumno(id, s.alumnos[id]))
  }

  /** `POST /`: both names are required (JavaScript-truthy, i.e. non-empty);
      the new row takes the next AUTO_INCREMENT id. */
  function Create(s: Store, nombre: string, apellido: string, f: Faults): (r: Response)
    ensures nombre != "" && apellido != "" && f.Fails(0) ==> r == Response(s, ServerError, Error(MsgCreateFailed))
    ensures nombre == "" || apellido == "" ==> r == Response(s, BadRequest, Error(MsgRequired))
    ensures r.status == Created <==> nombre != "" && apellido != "" && !f.Fails(0)
    ensures r.status != Created ==> r.store == s
    ensures r.status == Created ==>
      && r.store.alumnos.Keys == s.alumnos.Keys + {s.nextAlumno}
      && r.store.alumnos[s.nextAlumno] == Alumno(nombre, apellido)
      && (forall k | k in s.alumnos && k != s.nextAlumno :: r.store.alumnos[k] == s.alumnos[k])
      && r.store.(alumnos := s.alumnos, nextAlumno := s.nextAlumno) == s
      && r.store.nextAlumno > s.nextAlumno
  {
    if nombre == "" || apellido == "" then Response(s, BadRequest, Error(MsgRequired))
    else if f.Fails(0) then Response(s, ServerError, Error(MsgCreateFailed))
    else
      var id := s.nextAlumno;
      Response(s.(alumnos := s.alumnos[id := Alumno(nombre, apellido)], nextAlumno := id + 1),
               Created, Message(MsgCreated))
  }

  /** `PUT /:id`: replaces both names of an existing row. The connection
      reports matched rows (mysql2 sets CLIENT_FOUND_ROWS), so 404 means the
      id is absent, not that the names were already equal. */
  function Update(s: Store, id: int, nombre: string, apellido: string, f: Faults): (r: Response)
    ensures nombre != "" && apellido != "" && f.Fails(0) ==> r == Response(s, ServerError, Error(MsgUpdateFailed))
    ensures nombre == "" || apellido == "" ==> r == Response(s, BadRequest, Error(MsgRequired))
    ensures r.status == NotFound <==> nombre != "" && apellido != "" && !f.Fails(0) && id !in s.alumnos
    ensures r.status == Ok <==> nombre != "" && apellido != "" && !f.Fails(0) && id in s.alumnos
    ensures r.status != Ok ==> r.store == s
    ensures r.status == Ok ==>
      && r.store.alumnos.Keys == s.alumnos.Keys
      && r.store.alumnos[id] == Alumno(nombre, apellido)
      && (forall k | k in s.alumnos && k != id :: r.store.alumnos[k] == s.alumnos[k])
      && r.store.(alumnos := s.alumnos) == s
  {
    if nombre == "" || apellido == "" then Response(s, BadRequest, Error(MsgRequired))
    else if f.Fails(0) then Response(s, ServerError, Error(MsgUpdateFailed))
    else if id !in s.alumnos then Response(s, NotFound, Error(MsgNotFound))
    else Response(s.(alumnos := s.alumnos[id := Alumno(nombre, apellido)]), Ok, Message(MsgUpdated))
  }

  /** `DELETE /:id`: first `DELETE FROM notas WHERE alumno_id = ?` (query 0),
      then `DELETE FROM alumnos WHERE id = ?` (query 1). The two statements
      are not in a transaction, so a 404 or a failing second query still
      leaves the grades removed. */
  function Delete(s: Store, id: int, f: Faults): (r: Response)
    ensures f.Fails(1) ==> r.status == ServerError && r.body == Error(MsgDeleteFailed)
    ensures f.Fails(0) ==> r == Response(s, ServerError, Error(MsgDeleteFailed))
    ensures !f.Fails(0) ==> GradesOfAlumno(r.store.notas, id) == {}
    ensures !f.Fails(0) ==> forall k :: k in r.store.notas <==> k in s.notas && s.notas[k].alumno != id
    ensures forall k | k in r.store.notas :: k in s.notas && r.store.notas[k] == s.notas[k]
    ensures r.status == Ok <==> !f.Fails(0) && !f.Fails(1) && id in s.alumnos
    ensures r.status == NotFound <==> !f.Fails(0) && !f.Fails(1) && id !in s.alumnos
    ensures r.store.alumnos == if r.status == Ok then s.alumnos - {id} else s.alumnos
    ensures r.store.(notas := s.notas, alumnos := s.alumnos) == s
  {
    if f.Fails(0) then Response(s, ServerError, Error(MsgDeleteFailed))
    else
      var s1 := s.(notas := DropAlumnoGrades(s.notas, id));
      if f.Fails(1) then Response(s1, ServerError, Error(MsgDeleteFailed))
      else if id !in s1.alumnos then Response(s1, NotFound, Error(MsgNotFound))
      else Response(s1.(alumnos := s1.alumnos - {id}), Ok, Message(MsgDeleted))
  }

  /** The rows of `/:id/notas`: grades of student `id` inner-joined with the
      student and with the subject, keyed by grade id. */
  function Report(s: Store, id: int): map<int, StudentGrade> {
    map k | k in s.notas && s.notas[k].alumno == id && id in s.alumnos && s.notas[k].materia in s.materias ::
      var n := s.notas[k];
      StudentGrade(s.alumnos[id].nombre, s.materias[n.materia].nombre, n.nota1, n.nota2, n.nota3, Average(n))
  }

  /** `GET /:id/notas`: one row per grade of the student whose subject still
      exists, each with its average; an empty result is a 404. */
  function Grades(s: Store, id: int, f: Faults): (r: Response)
    ensures f.Fails(0) ==> r == Response(s, ServerError, Error(MsgGradesFailed))
    ensures r.store == s
    ensures r.status == NotFound <==>
      !f.Fails(0) && (id !in s.alumnos || forall k | k in GradesOfAlumno(s.notas, id) :: s.notas[k].materia !in s.materias)
    ensures r.status == Ok <==>
      !f.Fails(0) && id in s.alumnos && exists k | k in GradesOfAlumno(s.notas, id) :: s.notas[k].materia in s.materias
    ensures r.status == Ok ==> r.body.StudentGrades?
    ensures r.status == Ok ==> forall k ::
      k in r.body.studentRows <==> k in GradesOfAlumno(s.notas, id) && s.notas[k].materia in s.materias
    ensures r.status == Ok ==> forall k | k in r.body.studentRows ::
      var n := s.notas[k];
      var row := r.body.studentRows[k];
      && row.alumno == s.alumnos[id].nombre && row.materia == s.materias[n.materia].nombre
      && row.nota1 == n.nota1 && row.nota2 == n.nota2 && row.nota3 == n.nota3
      && row.promedio * 3.0 == n.nota1 + n.nota2 + n.nota3
  {
    if f.Fails(0) then Response(s, ServerError, Error(MsgGradesFailed))
    else
      var rows := Report(s, id);
      assert forall k | k in GradesOfAlumno(s.notas, id) && id in s.alumnos && s.notas[k].materia in s.materias :: k in rows;
      if rows == map[] then
        Response(s, NotFound, Error(MsgNoGrades))
      else
        assert id in s.alumnos && exists k | k in GradesOfAlumno(s.notas, id) :: s.notas[k].materia in s.materias by {
          var k := Member(rows.Keys);
        }
        Response(s, Ok, StudentGrades(rows))
  }

  /** `GET /:id/promedio`: `AVG((nota1 + nota2 + nota3) / 3)` over the
      student's grades joined with the student row; a NULL average (no such
      rows) is a 404. */
  function OverallAverage(s: Store, id: int, f: Faults): (r: Response)
    ensures f.Fails(0) ==> r == Response(s, ServerError, Error(MsgAverageFailed))
    ensures r.store == s
    ensures r.status == NotFound <==> !f.Fails(0) && (id !in s.alumnos || GradesOfAlumno(s.notas, id) == {})
    ensures r.status == Ok <==> !f.Fails(0) && id in s.alumnos && GradesOfAlumno(s.notas, id) != {}
    ensures r.status == Ok ==>
      r.body == StudentAverage(s.alumnos[id].nombre, Mean(GradesOfAlumno(s.notas, id), Averages(s.notas)))
  {
    if f.Fails(0) then Response(s, ServerError, Error(MsgAverageFailed))
    else if id !in s.alumnos || GradesOfAlumno(s.notas, id) == {} then Response(s, NotFound, Error(MsgNoAverage))
    else Response(s, Ok, StudentAverage(s.alumnos[id].nombre, Mean(GradesOfAlumno(s.notas, id), Averages(s.notas))))
  }

  /** `GET /:id/materias-pendientes`: the subjects left-joined with the
      student's grades, keeping those with no match; "nothing pending" is a
      404. The student row itself is not consulted. */
  function PendingSubjects(s: Store, id: int, f: Faults): (r: Response)
    ensures f.Fails(0) ==> r == Response(s, ServerError, Error(MsgPendingFailed))
    ensures r.store == s
    ensures r.status == NotFound <==> !f.Fails(0) && s.materias.Keys <= SubjectsGradedFor(s.notas, id)
    ensures r.status == Ok <==> !f.Fails(0) && exists m | m in s.materias :: m !in SubjectsGradedFor(s.notas, id)
    ensures r.status == Ok ==> r.body.Names? && r.body.names.Keys == s.materias.Keys - SubjectsGradedFor(s.notas, id)
    ensures r.status == Ok ==> forall m | m in r.body.names :: r.body.names[m] == s.materias[m].nombre
  {
    if f.Fails(0) then Response(s, ServerError, Error(MsgPendingFailed))
    else
      var pending := map m | m in s.materias && !(exists k | k in s.notas :: s.notas[k].materia == m && s.notas[k].alumno == id)
        :: s.materias[m].nombre;
      if pending == map[] then
        assert forall m | m in s.materias :: m in SubjectsGradedFor(s.notas, id) by {
          forall m | m in s.materias ensures m in SubjectsGradedFor(s.notas, id) {
            assert m !in pending;
          }
        }
        Response(s, NotFound, Error(MsgNothingPending))
      else Response(s, Ok, Names(pending))
  }

  /** On a consistent store a create adds exactly one row, under a key no
      row had, and keeps the store consistent. */
  lemma CreateAddsOneRow(s: Store, nombre: string, apellido: string, f: Faults)
    requires Valid(s)
    ensures var r := Create(s, nombre, apellido, f);
      && Valid(r.store)
      && (r.status == Created ==> s.nextAlumno !in s.alumnos && |r.store.alumnos| == |s.alumnos| + 1)
  {
    var r := Create(s, nombre, apellido, f);
    if r.status == Created {
      assert s.nextAlumno !in s.alumnos;
      assert r.store.alumnos == s.alumnos[s.nextAlumno := Alumno(nombre, apellido)];
    }
  }

  /** Updates and deletes keep the store consistent: a delete removes the
      student's grades before the student, so no grade is left orphaned. */
  lemma UpdateDeletePreserveValid(s: Store, id: int, nombre: string, apellido: string, f: Faults)
    requires Valid(s)
    ensures Valid(Update(s, id, nombre, apellido, f).store)
    ensures Valid(Delete(s, id, f).store)
  {
    var r := Delete(s, id, f);
    if s.foreignKeys {
      forall k | k in r.store.notas
        ensures r.store.notas[k].alumno in r.store.alumnos && r.store.notas[k].materia in r.store.materias
      {
        assert k in s.notas && r.store.notas[k] == s.notas[k];
        if !f.Fails(0) {
          assert s.notas[k].alumno != id;
        }
      }
    }
  }

  /** On a consistent store with foreign keys, deleting a missing student is
      a 404 that changes nothing (there are no grades to cascade). */
  lemma DeleteMissingIsNoop(s: Store, id: int, f: Faults)
    requires Valid(s) && s.foreignKeys
    requires id !in s.alumnos && !f.Fails(0) && !f.Fails(1)
    ensures Delete(s, id, f) == Response(s, NotFound, Error(MsgNotFound))
  {
    var r := Delete(s, id, f);
    forall k | k in s.notas ensures s.notas[k].alumno != id {
      assert s.notas[k].alumno in s.alumnos;
    }
    assert r.store.notas == s.notas;
  }

  /** Once a student is deleted, asking for their grades is a 404. */
  lemma GradesGoneAfterDelete(s: Store, id: int, f: Faults, g: Faults)
    requires !f.Fails(0) && !g.Fails(0)
    ensures Grades(Delete(s, id, f).store, id, g).status == NotFound
    ensures OverallAverage(Delete(s, id, f).store, id, g).status == NotFound
  {
    var t := Delete(s, id, f).store;
    assert GradesOfAlumno(t.notas, id) == {};
  }

  /** Scores are validated into [0, 10] on every write, so the overall
      average of any student is in [0, 10]. */
  lemma OverallAverageInScale(s: Store, id: int, f: Faults)
    requires Valid(s)
    ensures var r := OverallAverage(s, id, f);
      r.status == Ok ==> InScale(r.body.promedio)
  {
    var r := OverallAverage(s, id, f);
    if r.status == Ok {
      var ks := GradesOfAlumno(s.notas, id);
      forall k | k in ks ensures 0.0 <= Averages(s.notas)(k) <= 10.0 {
        assert ScoresInScale(s.notas[k]);
      }
      MeanBounds(ks, Averages(s.notas), 0.0, 10.0);
    }
  }

  /** With foreign keys in force the two per-student queries agree: the
      report lists every grade of the student, the average exists exactly
      when the report does, and it is the mean of the report's averages. */
  lemma AverageAgreesWithReport(s: Store, id: int, f: Faults)
    requires Valid(s) && s.foreignKeys && !f.Fails(0)
    ensures var g := Grades(s, id, f);
            var a := OverallAverage(s, id, f);
      && (g.status == Ok <==> a.status == Ok)
      && (g.status == Ok ==> g.body.studentRows.Keys == GradesOfAlumno(s.notas, id))
      && (g.status == Ok ==>
            var rows := g.body.studentRows;
            a.body.promedio == Mean(rows.Keys, k => if k in rows then rows[k].promedio else 0.0))
  {
    var g := Grades(s, id, f);
    var ks := GradesOfAlumno(s.notas, id);
    forall k | k in ks ensures s.notas[k].materia in s.materias {
      assert k in s.notas;
    }
    if g.status == Ok {
      var rows := g.body.studentRows;
      assert rows.Keys == ks;
      SumCongruent(ks, Averages(s.notas), k => if k in rows then rows[k].promedio else 0.0);
    } else if id in s.alumnos {
      assert forall k :: k !in ks;
      assert ks == {};
    }
  }

  /** A student with the single grade (6, 7, 8) has overall average 7. */
  lemma SingleGradeAverage(s: Store, id: int, k: int, f: Faults)
    requires !f.Fails(0) && id in s.alumnos
    requires k in s.notas && s.notas[k] == Nota(id, s.notas[k].materia, 6.0, 7.0, 8.0)
    requires GradesOfAlumno(s.notas, id) == {k}
    ensures OverallAverage(s, id, f) == Response(s, Ok, StudentAverage(s.alumnos[id].nombre, 7.0))
  {
    SumSingleton(k, Averages(s.notas));
  }
}

=== FILE: api.dfy ===
/** The whole API as one request handler: the authentication routes are
    open, every other route sits behind the passport gate, whose user
    lookup is the first query of the request. */
module Api {
  import opened Base
  import Tables
  import opened Db
  import opened Http
  import opened Numerals
  import opened Crypto
  import opened Gates
  import Alumnos
  import Materias
  import Notas
  import Auth

  /** One route with its parameters, as Express hands them to the handler. */
  datatype Route =
    | AlumnosList
    | AlumnosGet(alumno: int)
    | AlumnosCreate(nombre: string, apellido: string)
    | AlumnosUpdate(alumno: int, nombre: string, apellido: string)
    | AlumnosDelete(alumno: int)
    | AlumnosGrades(alumno: int)
    | AlumnosAverage(alumno: int)
    | AlumnosPending(alumno: int)
    | MateriasList
    | MateriasGet(id: string)
    | MateriasCreate(nombre: string)
    | MateriasUpdate(id: string, nombre: string)
    | MateriasDelete(id: string)
    | MateriasStudents(id: string)
    | MateriasPending(id: string)
    | NotasList
    | NotasGet(id: string)
    | NotasCreate(alumnoId: string, materiaId: string, nota1: Option<real>, nota2: Option<real>, nota3: Option<real>)
    | NotasUpdate(id: string, nota1: Option<real>, nota2: Option<real>, nota3: Option<real>)
    | NotasDelete(id: string)
    | NotasAverage(alumnoId: string, materiaId: string)
    | AuthLogin(email: string, password: string)
    | AuthRegister(email: string, password: string)
  {
    predicate Protected() {
      !(AuthLogin? || AuthRegister?)
    }

    /** Routes that only read the store. */
    predicate ReadOnly() {
      || AlumnosList? || AlumnosGet? || AlumnosGrades? || AlumnosAverage? || AlumnosPending?
      || MateriasList? || MateriasGet? || MateriasStudents? || MateriasPending?
      || NotasList? || NotasGet? || NotasAverage? || AuthLogin?
    }
  }

  /** `header` is the Authorization header, "" when absent. */
  datatype Request = Request(header: string, route: Route)

  /** What the request meets outside the store: the two libraries, the
      `JWT_SECRET` setting ("" when unset), the clock and the salt bcrypt
      would draw. The login and register routes and the passport gate all
      sign or verify with `Secret(jwtSecret)`, the same fallback rule. */
  datatype Env = Env(hasher: Hasher, jwt: Jwt, jwtSecret: string, now: int, salt: nat)

  /** The handler of a protected route, once the gate has admitted it. */
  function Handle(s: Store, route: Route, f: Faults): Response
    requires route.Protected()
  {
    match route
    case AlumnosList => Alumnos.List(s, f)
    case AlumnosGet(a) => Alumnos.Get(s, a, f)
    case AlumnosCreate(n, ap) => Alumnos.Create(s, n, ap, f)
    case AlumnosUpdate(a, n, ap) => Alumnos.Update(s, a, n, ap, f)
    case AlumnosDelete(a) => Alumnos.Delete(s, a, f)
    case AlumnosGrades(a) => Alumnos.Grades(s, a, f)
    case AlumnosAverage(a) => Alumnos.OverallAverage(s, a, f)
    case AlumnosPending(a) => Alumnos.PendingSubjects(s, a, f)
    case MateriasList => Materias.List(s, f)
    case MateriasGet(id) => Materias.Get(s, id, f)
    case MateriasCreate(n) => Materias.Create(s, n, f)
    case MateriasUpdate(id, n) => Materias.Update(s, id, n, f)
    case MateriasDelete(id) => Materias.Delete(s, id, f)
    case MateriasStudents(id) => Materias.Students(s, id, f)
    case MateriasPending(id) => Materias.PendingStudents(s, id, f)
    case NotasList => Notas.List(s, f)
    case NotasGet(id) => Notas.Get(s, id, f)
    case NotasCreate(a, m, n1, n2, n3) => Notas.Create(s, a, m, n1, n2, n3, f)
    case NotasUpdate(id, n1, n2, n3) => Notas.Update(s, id, n1, n2, n3, f)
    case NotasDelete(id) => Notas.Delete(s, id, f)
    case NotasAverage(a, m) => Notas.PairAverage(s, a, m, f)
  }

  /** One request: open routes go straight to their handler; a protected
      route runs its handler only when the gate admits, with the gate's
      lookup counted as the request's first query. */
  function Serve(s: Store, env: Env, req: Request, f: Faults): (r: Response)
    ensures req.route.Protected() ==>
      match Authenticate(s, env.jwt, Secret(env.jwtSecret), req.header, env.now, f)
      case Reject(status, body) => r == Response(s, status, body)
      case Admit(_) => r == Handle(s, req.route, f.Next())
  {
    var route := req.route;
    if route.AuthLogin? then
      Auth.Login(s, env.hasher, env.jwt, Secret(env.jwtSecret), route.email, route.password, env.now, f)
    else if route.AuthRegister? then
      Auth.Register(s, env.hasher, env.jwt, Secret(env.jwtSecret), route.email, route.password, env.salt, env.now, f)
    else
      match Authenticate(s, env.jwt, Secret(env.jwtSecret), req.header, env.now, f)
      case Reject(status, body) => Response(s, status, body)
      case Admit(_) => Handle(s, route, f.Next())
  }

  /** Without an Authorization header every protected route is a 401 that
      leaves the store alone. */
  lemma NoHeaderUnauthorized(s: Store, env: Env, route: Route, f: Faults)
    requires route.Protected()
    ensures Serve(s, env, Request("", route), f) == Response(s, Unauthorized, Plain(TextUnauthorized))
  {
  }

  /** A failing user lookup is a 500 and the handler does not run. */
  lemma LookupFailureStops(s: Store, env: Env, req: Request)
    requires req.route.Protected()
    ensures Serve(s, env, req, FailAt(0)).store == s
    ensures Serve(s, env, req, FailAt(0)).status in {Unauthorized, ServerError}
  {
  }

  /** Read-only routes never change the store, whatever the request. */
  lemma ReadsNeverWrite(s: Store, env: Env, req: Request, f: Faults)
    requires req.route.ReadOnly()
    ensures Serve(s, env, req, f).store == s
  {
    if req.route.Protected() {
      ReadOnlyHandle(s, req.route, f.Next());
    }
  }

  /** No protected handler can break the store invariants. */
  lemma HandlePreservesValid(s: Store, route: Route, g: Faults)
    requires Valid(s)
    requires route.Protected()
    ensures Valid(Handle(s, route, g).store)
  {
    if route.ReadOnly() {
      ReadOnlyHandle(s, route, g);
    } else if route.AlumnosCreate? || route.AlumnosUpdate? || route.AlumnosDelete? {
      AlumnosWritesPreserveValid(s, route, g);
    } else if route.MateriasCreate? || route.MateriasUpdate? || route.MateriasDelete? {
      MateriasWritesPreserveValid(s, route, g);
    } else {
      NotasWritesPreserveValid(s, route, g);
    }
  }

  lemma AlumnosWritesPreserveValid(s: Store, route: Route, g: Faults)
    requires Valid(s)
    requires route.AlumnosCreate? || route.AlumnosUpdate? || route.AlumnosDelete?
    ensures Valid(Handle(s, route, g).store)
  {
    match route
    case AlumnosCreate(n, ap) => Alumnos.CreateAddsOneRow(s, n, ap, g);
    case AlumnosUpdate(a, n, ap) => Alumnos.UpdateDeletePreserveValid(s, a, n, ap, g);
    case AlumnosDelete(a) => Alumnos.UpdateDeletePreserveValid(s, a, "", "", g);
  }

  lemma MateriasWritesPreserveValid(s: Store, route: Route, g: Faults)
    requires Valid(s)
    requires route.MateriasCreate? || route.MateriasUpdate? || route.MateriasDelete?
    ensures Valid(Handle(s, route, g).store)
  {
    match route
    case MateriasCreate(n) => Materias.CreatePreservesValid(s, n, g);
    case MateriasUpdate(id, n) => Materias.UpdatePreservesValid(s, id, n, g);
    case MateriasDelete(id) => Materias.DeletePreservesValid(s, id, g);
  }

  lemma NotasWritesPreserveValid(s: Store, route: Route, g: Faults)
    requires Valid(s)
    requires route.NotasCreate? || route.NotasUpdate? || route.NotasDelete?
    ensures Valid(Handle(s, route, g).store)
  {
    match route
    case NotasCreate(a, m, n1, n2, n3) => Notas.CreatePreservesValid(s, a, m, n1, n2, n3, g);
    case NotasUpdate(id, n1, n2, n3) => Notas.UpdatePreservesValid(s, id, n1, n2, n3, g);
    case NotasDelete(id) => Notas.DeletePreservesValid(s, id, g);
  }

  /** The read-only protected handlers leave the store as it was. */
  lemma ReadOnlyHandle(s: Store, route: Route, g: Faults)
    requires route.Protected() && route.ReadOnly()
    ensures Handle(s, route, g).store == s
  {
  }

  /** No request can break the store invariants. */
  lemma ServePreservesValid(s: Store, env: Env, req: Request, f: Faults)
    requires Valid(s)
    ensures Valid(Serve(s, env, req, f).store)
  {
    if req.route.AuthRegister? {
      Auth.RegisterPreservesValid(s, env.hasher, env.jwt, Secret(env.jwtSecret), req.route.email, req.route.password, env.salt, env.now, f);
    } else if req.route.Protected() {
      HandlePreservesValid(s, req.route, f.Next());
    }
  }

  /** The token `/login` answers opens every protected route, for the user
      who logged in, until four hours after the login: the login route and
      the passport gate derive their key from the same `JWT_SECRET` setting. */
  lemma LoginTokenOpensProtectedRoutes(s: Store, env: Env, email: string, password: string, f: Faults,
                                       scheme: string, route: Route, later: int, g: Faults)
    requires env.jwt.Sound()
    requires Serve(s, env, Request("", AuthLogin(email, password)), f).status == Ok
    requires IsBearerScheme(scheme) && route.Protected()
    requires later < env.now + Lifetime && !g.Fails(0)
    ensures
      var login := Serve(s, env, Request("", AuthLogin(email, password)), f);
      && login.body.Token?
      && Serve(s, env.(now := later), Request(scheme + " " + login.body.token, route), g) == Handle(s, route, g.Next())
  {
    var login := Serve(s, env, Request("", AuthLogin(email, password)), f);
    var secret := Secret(env.jwtSecret);
    var rows := UsersWithEmail(s.users, email);
    var k := Tables.Least(rows);
    assert k in rows;
    IssuedTokenAdmitted(s, env.jwt, secret, scheme, k, email, env.now, later);
  }

  /** Recording a grade takes the subject off the student's pending list
      and the student off the subject's pending list. */
  lemma GradeClearsPending(s: Store, alumnoId: string, materiaId: string,
                           nota1: Option<real>, nota2: Option<real>, nota3: Option<real>, f: Faults, g: Faults)
    requires Notas.Create(s, alumnoId, materiaId, nota1, nota2, nota3, f).status == Created
    ensures
      var t := Notas.Create(s, alumnoId, materiaId, nota1, nota2, nota3, f).store;
      var p := Alumnos.PendingSubjects(t, ToInt(alumnoId), g);
      p.status == Ok ==> ToInt(materiaId) !in p.body.names
    ensures
      var t := Notas.Create(s, alumnoId, materiaId, nota1, nota2, nota3, f).store;
      var q := Materias.PendingStudents(t, materiaId, g);
      q.status == Ok ==> ToInt(alumnoId) !in q.body.names
  {
    var t := Notas.Create(s, alumnoId, materiaId, nota1, nota2, nota3, f).store;
    assert t.notas[s.nextNota].alumno == ToInt(alumnoId) && t.notas[s.nextNota].materia == ToInt(materiaId);
    assert ToInt(materiaId) in SubjectsGradedFor(t.notas, ToInt(alumnoId));
    assert ToInt(alumnoId) in StudentsGradedIn(t.notas, ToInt(materiaId));
  }
}

=== FILE: auth.dfy ===
/** The `/login` and `/register` routes: the only unprotected routes, and
    the only ones that read or write the users table. */
module Auth {
  import opened Base
  import opened Tables
  import opened Db
  import opened Http
  import opened Crypto

  const MsgMissingFields := "Faltan campos obligatorios"
  const MsgServerError := "Error en el servidor"
  const MsgBadCredentials := "Credenciales inválidas"
  const MsgUserExists := "El usuario ya existe"
  const MsgNotRetrieved := "No se pudo recuperar el usuario"

  /** `!email || !password`; "" stands for an absent field. */
  predicate MissingFields(email: string, password: string) {
    email == [] || password == []
  }

  /** `POST /login`: look the email up (query 0), compare the password
      with the stored digest of the first matching row, and answer a token
      for that row's id and email. An unknown email and a wrong password
      get the same 401. Login only reads. */
  function Login(s: Store, hasher: Hasher, jwt: Jwt, secret: string,
                 email: string, password: string, now: int, f: Faults): (r: Response)
    ensures r.store == s
    ensures MissingFields(email, password) ==> r.status == BadRequest && r.body == Error(MsgMissingFields)
    ensures r.status == ServerError <==> !MissingFields(email, password) && f.Fails(0)
    ensures !MissingFields(email, password) && f.Fails(0) ==> r == Response(s, ServerError, Error(MsgServerError))
    ensures !MissingFields(email, password) && !f.Fails(0) && UsersWithEmail(s.users, email) != {}
            && !hasher.compare(password, s.users[Least(UsersWithEmail(s.users, email))].password) ==>
      r == Response(s, Unauthorized, Error(MsgBadCredentials))
    ensures r.status == Unauthorized ==> r.body == Error(MsgBadCredentials)
    ensures !MissingFields(email, password) && !f.Fails(0) && UsersWithEmail(s.users, email) == {} ==>
      r.status == Unauthorized
    ensures r.status == Ok ==>
      var rows := UsersWithEmail(s.users, email);
      && rows != {}
      && hasher.compare(password, s.users[Least(rows)].password)
      && r.body == Token(Issue(jwt, secret, Least(rows), email, now))
    ensures !MissingFields(email, password) && !f.Fails(0) && UsersWithEmail(s.users, email) != {} ==>
      (r.status == Ok <==> hasher.compare(password, s.users[Least(UsersWithEmail(s.users, email))].password))
    ensures r.status in {Ok, BadRequest, Unauthorized, ServerError}
  {
    if MissingFields(email, password) then Response(s, BadRequest, Error(MsgMissingFields))
    else if f.Fails(0) then Response(s, ServerError, Error(MsgServerError))
    else
      var rows := UsersWithEmail(s.users, email);
      if rows == {} then Response(s, Unauthorized, Error(MsgBadCredentials))
      else
        var id := Least(rows);
        var user := s.users[id];
        if !hasher.compare(password, user.password) then Response(s, Unauthorized, Error(MsgBadCredentials))
        else Response(s, Ok, Token(Issue(jwt, secret, id, user.email, now)))
  }

  /** Login answers an unknown email and a wrong password identically, so
      the response does not reveal which accounts exist. */
  lemma LoginHidesUnknownEmail(s: Store, hasher: Hasher, jwt: Jwt, secret: string,
                               unknown: string, known: string, password: string, wrong: string, now: int)
    requires unknown != [] && known != [] && password != [] && wrong != []
    requires UsersWithEmail(s.users, unknown) == {}
    requires UsersWithEmail(s.users, known) != {}
    requires !hasher.compare(wrong, s.users[Least(UsersWithEmail(s.users, known))].password)
    ensures Login(s, hasher, jwt, secret, unknown, password, now, NoFault)
         == Login(s, hasher, jwt, secret, known, wrong, now, NoFault)
         == Response(s, Unauthorized, Error(MsgBadCredentials))
  {
    var rows := UsersWithEmail(s.users, known);
    assert Least(rows) in rows;
  }

  /** On a consistent store the row whose id a login token carries is the
      only user with that email, so taking the first row loses nothing. */
  lemma LoginUserIsOnlyMatch(s: Store, hasher: Hasher, jwt: Jwt, secret: string,
                             email: string, password: string, now: int, f: Faults)
    requires Valid(s)
    requires Login(s, hasher, jwt, secret, email, password, now, f).status == Ok
    ensures
      var id := Least(UsersWithEmail(s.users, email));
      && UsersWithEmail(s.users, email) == {id}
      && Login(s, hasher, jwt, secret, email, password, now, f).body == Token(Issue(jwt, secret, id, email, now))
  {
    var rows := UsersWithEmail(s.users, email);
    AtMostOneUser(s.users, email);
    assert Least(rows) in rows;
    assert |rows - {Least(rows)}| == |rows| - 1;
    assert rows - {Least(rows)} == {};
  }

  /** `POST /register`. Query 0 looks for the email, query 1 inserts the
      user with the bcrypt digest (random `salt`, `SaltRounds` rounds),
      query 2 reads it back to sign the token. When query 2 fails the user
      has already been written although the answer is a 500. */
  function Register(s: Store, hasher: Hasher, jwt: Jwt, secret: string,
                    email: string, password: string, salt: nat, now: int, f: Faults): (r: Response)
    ensures MissingFields(email, password) ==> r.store == s && r.status == BadRequest && r.body == Error(MsgMissingFields)
    ensures !MissingFields(email, password) && !f.Fails(0) && UsersWithEmail(s.users, email) != {} ==>
      r.store == s && r.status == BadRequest && r.body == Error(MsgUserExists)
    ensures r.status == Created <==>
      && !MissingFields(email, password) && UsersWithEmail(s.users, email) == {}
      && !f.Fails(0) && !f.Fails(1) && !f.Fails(2)
    ensures r.store != s <==> r.status == Created || (r.status == ServerError && f.Fails(2))
    ensures r.store != s ==>
      && r.store.users == s.users[s.nextUser := User(email, hasher.hash(password, SaltRounds, salt))]
      && r.store.nextUser == s.nextUser + 1
      && r.store.(users := s.users, nextUser := s.nextUser) == s
    ensures !MissingFields(email, password) && f.Fails(0) ==> r == Response(s, ServerError, Error(MsgServerError))
    ensures !MissingFields(email, password) && UsersWithEmail(s.users, email) == {} && f.Fails(1) ==>
      r == Response(s, ServerError, Error(MsgServerError))
    ensures !MissingFields(email, password) && UsersWithEmail(s.users, email) == {} && f.Fails(2) ==>
      r.status == ServerError && r.body == Error(MsgServerError) && r.store != s
    ensures r.status == Created ==> r.body == Token(Issue(jwt, secret, s.nextUser, email, now))
    ensures r.body != Error(MsgNotRetrieved)
  {
    if MissingFields(email, password) then Response(s, BadRequest, Error(MsgMissingFields))
    else if f.Fails(0) then Response(s, ServerError, Error(MsgServerError))
    else if UsersWithEmail(s.users, email) != {} then Response(s, BadRequest, Error(MsgUserExists))
    else
      var digest := hasher.hash(password, SaltRounds, salt);
      if f.Fails(1) then Response(s, ServerError, Error(MsgServerError))
      else
        var written := s.(users := s.users[s.nextUser := User(email, digest)], nextUser := s.nextUser + 1);
        if f.Fails(2) then Response(written, ServerError, Error(MsgServerError))
        else
          var rows := UsersWithEmail(written.users, email);
          NewUserIsOnlyMatch(s.users, s.nextUser, email, digest);
          if rows == {} then Response(written, ServerError, Error(MsgNotRetrieved))
          else
            var id := Least(rows);
            var user := written.users[id];
            Response(written, Created, Token(Issue(jwt, secret, id, user.email, now)))
  }

  /** After inserting a new email, the lookup by email finds only the new row. */
  lemma NewUserIsOnlyMatch(users: map<int, User>, id: int, email: string, digest: string)
    requires UsersWithEmail(users, email) == {}
    ensures UsersWithEmail(users[id := User(email, digest)], email) == {id}
  {
  }

  /** Register keeps every store invariant, in particular unique emails. */
  lemma RegisterPreservesValid(s: Store, hasher: Hasher, jwt: Jwt, secret: string,
                               email: string, password: string, salt: nat, now: int, f: Faults)
    requires Valid(s)
    ensures Valid(Register(s, hasher, jwt, secret, email, password, salt, now, f).store)
  {
    var r := Register(s, hasher, jwt, secret, email, password, salt, now, f);
    if r.store != s {
      assert UsersWithEmail(s.users, email) == {};
      assert s.nextUser !in s.users;
      forall i, j | i in r.store.users && j in r.store.users && r.store.users[i].email == r.store.users[j].email
        ensures i == j
      {
        if i != s.nextUser && j != s.nextUser {
          assert s.users[i].email == s.users[j].email;
        }
      }
    }
  }

  /** The token a registration answers carries the new user's id and
      email and is valid for four hours. */
  lemma RegisterTokenClaims(s: Store, hasher: Hasher, jwt: Jwt, secret: string,
                            email: string, password: string, salt: nat, now: int, later: int, f: Faults)
    requires jwt.Sound()
    requires Register(s, hasher, jwt, secret, email, password, salt, now, f).status == Created
    requires now <= later < now + Lifetime
    ensures
      var r := Register(s, hasher, jwt, secret, email, password, salt, now, f);
      r.body.Token? && Verify(jwt, secret, r.body.token, later) == Some(Claims(s.nextUser, email, now, now + Lifetime))
  {
    IssuedTokenLifetime(jwt, secret, s.nextUser, email, now, later);
  }

  /** With a sound bcrypt, logging in right after registering succeeds and
      yields a token for the new user. */
  lemma RegisterThenLogin(s: Store, hasher: Hasher, jwt: Jwt, secret: string,
                          email: string, password: string, salt: nat, now: int, later: int, f: Faults)
    requires hasher.Sound()
    requires Register(s, hasher, jwt, secret, email, password, salt, now, f).status == Created
    ensures
      var r := Register(s, hasher, jwt, secret, email, password, salt, now, f);
      Login(r.store, hasher, jwt, secret, email, password, later, NoFault)
        == Response(r.store, Ok, Token(Issue(jwt, secret, s.nextUser, email, later)))
  {
    var r := Register(s, hasher, jwt, secret, email, password, salt, now, f);
    NewUserIsOnlyMatch(s.users, s.nextUser, email, hasher.hash(password, SaltRounds, salt));
    assert UsersWithEmail(r.store.users, email) == {s.nextUser};
    assert hasher.compare(password, hasher.hash(password, SaltRounds, salt));
  }
}

=== FILE: base.dfy ===
/** The optional value used wherever the source has `undefined`, an empty
    result set, or a verification that may fail. */
module Base {

  datatype Option<+T> = None | Some(value: T)
}

=== FILE: crypto.dfy ===
/** The two foreign libraries the authentication code calls, kept abstract:
    bcrypt (salted password digests) and jsonwebtoken (signed tokens with
    an expiry claim, section 4.1.4 of RFC 7519). Each is a record of
    functions together with the few facts the application relies on. */
module Crypto {
  import opened Base

  /** The bcrypt cost factor used when registering. */
  const SaltRounds: nat := 10

  /** Token lifetime: `expiresIn: '4h'`, in seconds. */
  const Lifetime: nat := 4 * 60 * 60

  /** The secret used when the environment provides none (or an empty one). */
  const DefaultSecret := "clave_secreta"

  /** `process.env.JWT_SECRET || 'clave_secreta'`; "" stands for an unset
      variable, and an empty value is falsy in the same way. */
  function Secret(env: string): (secret: string)
    ensures secret != []
    ensures env != [] ==> secret == env
    ensures env == [] ==> secret == DefaultSecret
  {
    if env == [] then DefaultSecret else env
  }

  /** bcrypt: `hash(password, rounds, salt)` with the random salt made an
      explicit argument, and `compare(password, digest)`. */
  datatype Hasher = Hasher(hash: (string, nat, nat) -> string, compare: (string, string) -> bool)
  {
    /** A password always matches a digest made from it. */
    ghost predicate Sound() {
      forall password: string, rounds: nat, salt: nat ::
        compare(password, hash(password, rounds, salt))
    }
  }

  /** The payload this application signs and later reads back. */
  datatype Claims = Claims(id: int, email: string, iat: int, exp: int)

  /** The characters of a compact JWS: the base64url alphabet and the dot
      between its three parts. */
  predicate JwsChar(c: char) {
    ('A' <= c <= 'Z') || ('a' <= c <= 'z') || ('0' <= c <= '9') || c == '-' || c == '_' || c == '.'
  }

  /** jsonwebtoken: `sign(claims, secret)` and the signature check of
      `verify`, which yields the payload of a token signed with `secret`. */
  datatype Jwt = Jwt(sign: (Claims, string) -> string, decode: (string, string) -> Option<Claims>)
  {
    /** Signed tokens are non-empty compact serialisations, and a token
        checked against the secret that signed it yields its payload. */
    ghost predicate Sound() {
      && (forall c: Claims, secret: string :: decode(sign(c, secret), secret) == Some(c))
      && (forall c: Claims, secret: string :: |sign(c, secret)| > 0)
      && (forall c: Claims, secret: string, i: int | 0 <= i < |sign(c, secret)| :: JwsChar(sign(c, secret)[i]))
    }
  }

  /** `jwt.sign({ id, email }, secret, { expiresIn: '4h' })` at time `now`
      (whole seconds): `iat` is now and `exp` four hours later. */
  function Issue(jwt: Jwt, secret: string, id: int, email: string, now: int): (token: string)
    ensures jwt.Sound() ==> jwt.decode(token, secret) == Some(Claims(id, email, now, now + Lifetime))
    ensures jwt.Sound() ==> token != []
  {
    jwt.sign(Claims(id, email, now, now + Lifetime), secret)
  }

  /** `jwt.verify(token, secret)` at time `now`: an empty token is refused,
      so is one whose signature does not check, and so is one whose `exp`
      has been reached (`now >= exp`). */
  function Verify(jwt: Jwt, secret: string, token: string, now: int): (claims: Option<Claims>)
    ensures claims.Some? <==> token != [] && jwt.decode(token, secret).Some? && now < jwt.decode(token, secret).value.exp
    ensures claims.Some? ==> claims == jwt.decode(token, secret)
  {
    if token == [] then None
    else match jwt.decode(token, secret)
      case None => None
      case Some(c) => if now >= c.exp then None else Some(c)
  }

  /** A token issued at `iat` verifies, with the claims it was issued with,
      exactly while fewer than four hours have passed. */
  lemma IssuedTokenLifetime(jwt: Jwt, secret: string, id: int, email: string, iat: int, now: int)
    requires jwt.Sound()
    ensures Verify(jwt, secret, Issue(jwt, secret, id, email, iat), now).Some? <==> now < iat + Lifetime
    ensures now < iat + Lifetime ==>
      Verify(jwt, secret, Issue(jwt, secret, id, email, iat), now) == Some(Claims(id, email, iat, iat + Lifetime))
  {
  }

  /** The `b64token` syntax of section 2.1 of RFC 6750: one or more of
      ALPHA / DIGIT / "-" / "." / "_" / "~" / "+" / "/", then any number of "=". */
  predicate B64Char(c: char) {
    ('A' <= c <= 'Z') || ('a' <= c <= 'z') || ('0' <= c <= '9')
    || c == '-' || c == '.' || c == '_' || c == '~' || c == '+' || c == '/'
  }

  /** The number of "=" that end `t`. */
  function PaddingRun(t: string): (n: nat)
    ensures n <= |t|
    ensures forall i | |t| - n <= i < |t| :: t[i] == '='
    ensures n < |t| ==> t[|t| - n - 1] != '='
    decreases |t|
  {
    if t != [] && t[|t| - 1] == '=' then 1 + PaddingRun(t[..|t| - 1]) else 0
  }

  /** Since "=" is not a `B64Char`, the trailing run of "=" is the padding
      and everything before it must be a non-empty run of `B64Char`. */
  predicate IsB64Token(t: string) {
    var k := |t| - PaddingRun(t);
    k >= 1 && forall i | 0 <= i < k :: B64Char(t[i])
  }

  /** Every token this application issues is a `b64token`, so it can be
      carried in an `Authorization: Bearer` header. */
  lemma {:induction false} IssuedTokenIsB64(jwt: Jwt, secret: string, id: int, email: string, iat: int)
    requires jwt.Sound()
    ensures IsB64Token(Issue(jwt, secret, id, email, iat))
  {
    var t := Issue(jwt, secret, id, email, iat);
    var c := Claims(id, email, iat, iat + Lifetime);
    assert t == jwt.sign(c, secret);
    assert |t| > 0;
    forall i | 0 <= i < |t|
      ensures B64Char(t[i])
    {
      assert JwsChar(jwt.sign(c, secret)[i]);
    }
    assert PaddingRun(t) == 0 by {
      assert !B64Char('=');
      assert t[|t| - 1] != '=';
    }
  }
}

=== FILE: db.dfy ===
/** The relational state behind the routes: the `usuarios`, `alumnos`,
    `materias` and `notas` tables as finite maps from primary key to row,
    with one AUTO_INCREMENT counter per table. */
module Db {
  import opened Tables

  /** A `usuarios` row; `password` holds the bcrypt digest, never the plaintext. */
  datatype User = User(email: string, password: string)

  /** An `alumnos` row. */
  datatype Alumno = Alumno(nombre: string, apellido: string)

  /** A `materias` row. */
  datatype Materia = Materia(nombre: string)

  /** A `notas` row: the three scores of one student in one subject. */
  datatype Nota = Nota(alumno: int, materia: int, nota1: real, nota2: real, nota3: real)

  /** The whole database. `foreignKeys` records whether the schema declares
      `notas.alumno_id` and `notas.materia_id` as foreign keys, in which case
      the store itself refuses an insert that references a missing row. */
  datatype Store = Store(
    users: map<int, User>,
    alumnos: map<int, Alumno>,
    materias: map<int, Materia>,
    notas: map<int, Nota>,
    nextUser: int,
    nextAlumno: int,
    nextMateria: int,
    nextNota: int,
    foreignKeys: bool)

  /** Which query of a request the database refuses, if any. A handler issues
      its queries in order, numbered from 0, and the first one that throws
      ends it in its `catch` block. */
  datatype Faults = NoFault | FailAt(query: nat) {

    predicate Fails(i: nat) {
      FailAt? && query == i
    }

    /** The faults seen by whatever runs after one query has succeeded. */
    function Next(): (g: Faults)
      ensures forall i: nat :: g.Fails(i) <==> Fails(i + 1)
    {
      match this
      case NoFault => NoFault
      case FailAt(q) => if q == 0 then NoFault else FailAt(q - 1)
    }
  }

  /** The grade scale every score is validated against. */
  predicate InScale(x: real) {
    0.0 <= x <= 10.0
  }

  predicate ScoresInScale(n: Nota) {
    InScale(n.nota1) && InScale(n.nota2) && InScale(n.nota3)
  }

  /** `(nota1 + nota2 + nota3) / 3`, the per-row average the grade queries
      compute (kept exact; the SQL rounds it to two decimals). */
  function Average(n: Nota): (a: real)
    ensures ScoresInScale(n) ==> InScale(a)
    ensures n.nota1 == n.nota2 == n.nota3 ==> a == n.nota1
  {
    (n.nota1 + n.nota2 + n.nota3) / 3.0
  }

  /** Every key of `m` was handed out by a counter that now stands at `next`. */
  predicate KeysBelow<T>(m: map<int, T>, next: int) {
    forall k | k in m :: 1 <= k < next
  }

  /** No two users share an email (the check `/register` makes before inserting). */
  predicate UniqueEmails(users: map<int, User>) {
    forall a, b | a in users && b in users && users[a].email == users[b].email :: a == b
  }

  /** Every grade row references an existing student and subject. */
  predicate NoOrphans(s: Store) {
    forall k | k in s.notas :: s.notas[k].alumno in s.alumnos && s.notas[k].materia in s.materias
  }

  /** The invariant every route preserves. */
  predicate Valid(s: Store) {
    && 1 <= s.nextUser && 1 <= s.nextAlumno && 1 <= s.nextMateria && 1 <= s.nextNota
    && KeysBelow(s.users, s.nextUser)
    && KeysBelow(s.alumnos, s.nextAlumno)
    && KeysBelow(s.materias, s.nextMateria)
    && KeysBelow(s.notas, s.nextNota)
    && UniqueEmails(s.users)
    && (forall k | k in s.notas :: ScoresInScale(s.notas[k]))
    && (s.foreignKeys ==> NoOrphans(s))
  }

  /** A freshly created database. */
  function Empty(foreignKeys: bool): (s: Store)
    ensures Valid(s)
    ensures s.users == map[] && s.alumnos == map[] && s.materias == map[] && s.notas == map[]
  {
    Store(map[], map[], map[], map[], 1, 1, 1, 1, foreignKeys)
  }

  /** `SELECT * FROM usuarios WHERE email = ?`: the keys of the matching rows. */
  function UsersWithEmail(users: map<int, User>, email: string): (ks: set<int>)
    ensures forall k :: k in ks <==> k in users && users[k].email == email
  {
    set k | k in users && users[k].email == email
  }

  /** While emails are unique, an email lookup finds at most one row. */
  lemma AtMostOneUser(users: map<int, User>, email: string)
    requires UniqueEmails(users)
    ensures |UsersWithEmail(users, email)| <= 1
  {
    var ks := UsersWithEmail(users, email);
    if ks != {} {
      var k := Least(ks);
      assert ks == {k};
    }
  }

  /** The keys of the grade rows of student `id`. */
  function GradesOfAlumno(notas: map<int, Nota>, id: int): (ks: set<int>)
    ensures forall k :: k in ks <==> k in notas && notas[k].alumno == id
  {
    set k | k in notas && notas[k].alumno == id
  }

  /** The keys of the grade rows in subject `id`. */
  function GradesOfMateria(notas: map<int, Nota>, id: int): (ks: set<int>)
    ensures forall k :: k in ks <==> k in notas && notas[k].materia == id
  {
    set k | k in notas && notas[k].materia == id
  }

  /** The subjects in which student `id` has at least one grade row. */
  function SubjectsGradedFor(notas: map<int, Nota>, id: int): (ms: set<int>)
    ensures forall m :: m in ms <==> exists k | k in notas :: notas[k].alumno == id && notas[k].materia == m
  {
    set k | k in notas && notas[k].alumno == id :: notas[k].materia
  }

  /** The students who have at least one grade row in subject `id`. */
  function StudentsGradedIn(notas: map<int, Nota>, id: int): (students: set<int>)
    ensures forall a :: a in students <==> exists k | k in notas :: notas[k].materia == id && notas[k].alumno == a
  {
    set k | k in notas && notas[k].materia == id :: notas[k].alumno
  }

  /** The per-row average of each grade row, as a function of its key. */
  function Averages(notas: map<int, Nota>): int -> real {
    k => if k in notas then Average(notas[k]) else 0.0
  }

  /** `DELETE FROM notas WHERE alumno_id = ?`. */
  function DropAlumnoGrades(notas: map<int, Nota>, id: int): (r: map<int, Nota>)
    ensures r.Keys == notas.Keys - GradesOfAlumno(notas, id)
    ensures forall k | k in r :: r[k] == notas[k]
  {
    map k | k in notas && notas[k].alumno != id :: notas[k]
  }

  /** `DELETE FROM notas WHERE materia_id = ?`. */
  function DropMateriaGrades(notas: map<int, Nota>, id: int): (r: map<int, Nota>)
    ensures r.Keys == notas.Keys - GradesOfMateria(notas, id)
    ensures forall k | k in r :: r[k] == notas[k]
  {
    map k | k in notas && notas[k].materia != id :: notas[k]
  }
}

=== FILE: gates.dfy ===
/** The two token gates: the `verifyToken` middleware (second
    space-separated field of the header, 401 when the header is missing,
    403 when the token does not verify) and the passport JWT strategy every
    protected route uses (Bearer extraction, verification, then a lookup of
    the user named by the token; every refusal is a bare 401). */
module Gates {
  import opened Base
  import opened Db
  import opened Http
  import opened JsText
  import opened Crypto

  const MsgNoToken := "Token no proporcionado"
  const MsgBadToken := "Token inválido"
  /** Passport's refusal and Express's default error answer. */
  const TextUnauthorized := "Unauthorized"
  const TextServerError := "Internal Server Error"

  /** What a gate decides: let the request through carrying a principal,
      or answer it itself (the next handler is then never called). */
  datatype Verdict<P> = Admit(principal: P) | Reject(status: Status, body: Body)

  /** The authenticated principal of passport: the user row and its id. */
  datatype Principal = Principal(id: int, user: User)

  /** `header.split(' ')[1]`; `None` stands for `undefined`. */
  function SecondField(header: string): (token: Option<string>)
    ensures token.Some? <==> ' ' in header
    ensures token.Some? ==> ' ' !in token.value
    ensures token.Some? ==> exists pre, post :: FieldShape(header, pre, token.value, post)
  {
    NoSpaceNoSplit(header);
    if ' ' in header then SecondFieldSound(header); Some(Split(header, ' ')[1])
    else None
  }

  /** `header` read as a first field `pre`, one space, the second field
      `field` and a `post` that is empty or starts with a space. */
  predicate FieldShape(header: string, pre: string, field: string, post: string) {
    && header == pre + " " + field + post
    && ' ' !in pre && ' ' !in field
    && (post == [] || post[0] == ' ')
  }

  /** The second piece of a split at spaces sits between the first space
      and the next one (or the end). */
  lemma SecondFieldSound(header: string)
    requires ' ' in header
    ensures |Split(header, ' ')| >= 2
    ensures exists pre, post :: FieldShape(header, pre, Split(header, ' ')[1], post)
  {
    NoSpaceNoSplit(header);
    var parts := Split(header, ' ');
    var pre := parts[0];
    FirstPiece(header, ' ');
    var rest := header[|pre| + 1..];
    assert header == pre + [' '] + rest;
    SplitOfPrefix(pre, ' ', rest);
    var field := Split(rest, ' ')[0];
    FirstPiece(rest, ' ');
    var post := rest[|field|..];
    assert rest == field + post;
    assert parts[1] == field;
    assert FieldShape(header, pre, field, post);
  }

  /** verifyToken's token, characterised without reference to `split`: it
      is `field` exactly when the header is a space-free first field, one
      space, `field`, and then nothing or a space. */
  lemma SecondFieldExact(header: string, field: string)
    ensures SecondField(header) == Some(field) <==> exists pre, post :: FieldShape(header, pre, field, post)
  {
    if exists pre, post :: FieldShape(header, pre, field, post) {
      var pre, post :| FieldShape(header, pre, field, post);
      var rest := field + post;
      assert header == pre + [' '] + rest;
      SplitOfPrefix(pre, ' ', rest);
      if post == [] {
        SplitOfPlain(field, ' ');
        assert rest == field;
      } else {
        assert rest == field + [' '] + post[1..];
        SplitOfPrefix(field, ' ', post[1..]);
      }
    }
  }

  /** `split(' ')` yields a second field exactly when there is a space. */
  lemma {:induction false} NoSpaceNoSplit(header: string)
    ensures |Split(header, ' ')| >= 2 <==> ' ' in header
    decreases |header|
  {
    if header != [] && header[0] != ' ' {
      NoSpaceNoSplit(header[1..]);
      assert ' ' in header <==> ' ' in header[1..] by {
        assert header == [header[0]] + header[1..];
      }
    }
  }

  /** `verifyToken`: an empty or absent header is a 401; a missing or
      unverifiable token a 403; otherwise the decoded claims go on. */
  function VerifyToken(jwt: Jwt, secret: string, header: string, now: int): (v: Verdict<Claims>)
    ensures header == [] ==> v == Reject(Unauthorized, Error(MsgNoToken))
    ensures v.Admit? <==> header != [] && SecondField(header).Some? && Verify(jwt, secret, SecondField(header).value, now).Some?
    ensures v.Admit? ==> Some(v.principal) == Verify(jwt, secret, SecondField(header).value, now)
    ensures header != [] && v.Reject? ==> v == Reject(Forbidden, Error(MsgBadToken))
  {
    if header == [] then Reject(Unauthorized, Error(MsgNoToken))
    else match SecondField(header)
      case None => Reject(Forbidden, Error(MsgBadToken))
      case Some(token) =>
        match Verify(jwt, secret, token, now)
        case None => Reject(Forbidden, Error(MsgBadToken))
        case Some(claims) => Admit(claims)
  }

  /** passport-jwt's `fromAuthHeaderAsBearerToken`: the header is matched
      against `(\S+)\s+(\S+)`; the first word must be "bearer" in any case
      and the second is the token. The first match starts at the first
      non-space character, so leading whitespace is skipped. */
  function BearerToken(header: string): (token: Option<string>)
    ensures token.Some? ==> token.value != [] && forall i | 0 <= i < |token.value| :: !IsSpace(token.value[i])
  {
    var rest := header[SpaceRun(header)..];
    var w := WordRun(rest);
    if w == 0 || AsciiLower(rest[..w]) != "bearer" then None
    else AfterScheme(rest[w..])
  }

  /** The `\s+(\S+)` part of the match, after the scheme word. */
  function AfterScheme(after: string): (token: Option<string>)
    ensures token.Some? ==> IsWord(token.value)
  {
    var gap := SpaceRun(after);
    var rest := after[gap..];
    var w := WordRun(rest);
    if gap == 0 || w == 0 then None else Some(rest[..w])
  }

  /** A non-empty run of non-whitespace, as `\S+` matches it. */
  predicate IsWord(w: string) {
    w != [] && forall i | 0 <= i < |w| :: !IsSpace(w[i])
  }

  /** A run of whitespace, possibly empty, as `\s*` matches it. */
  predicate IsBlank(w: string) {
    forall i | 0 <= i < |w| :: IsSpace(w[i])
  }

  /** `header` read as leading whitespace `lead`, the scheme word, a
      non-empty whitespace `gap`, the token word and a `tail` that is empty
      or starts with whitespace: the first match of `(\S+)\s+(\S+)`, with
      a scheme equal to "bearer" once lower-cased. */
  predicate BearerShape(header: string, lead: string, scheme: string, gap: string, token: string, tail: string) {
    && header == lead + scheme + gap + token + tail
    && IsBlank(lead) && IsWord(scheme) && gap != [] && IsBlank(gap) && IsWord(token)
    && (tail == [] || IsSpace(tail[0]))
    && AsciiLower(scheme) == "bearer"
  }

  /** A whitespace run followed by a non-space (or nothing) is measured exactly. */
  lemma SpaceRunOf(a: string, b: string)
    requires IsBlank(a) && (b == [] || !IsSpace(b[0]))
    ensures SpaceRun(a + b) == |a|
    ensures (a + b)[..|a|] == a && (a + b)[|a|..] == b
  {
    var s := a + b;
    assert forall i | 0 <= i < |a| :: s[i] == a[i];
    assert |a| < |s| ==> s[|a|] == b[0];
  }

  /** A word followed by whitespace (or nothing) is measured exactly. */
  lemma WordRunOf(a: string, b: string)
    requires IsWord(a) && (b == [] || IsSpace(b[0]))
    ensures WordRun(a + b) == |a|
    ensures (a + b)[..|a|] == a && (a + b)[|a|..] == b
  {
    var s := a + b;
    assert forall i | 0 <= i < |a| :: s[i] == a[i];
    assert |a| < |s| ==> s[|a|] == b[0];
  }

  /** A header of that shape yields its token. */
  lemma BearerTokenComplete(header: string, lead: string, scheme: string, gap: string, token: string, tail: string)
    requires BearerShape(header, lead, scheme, gap, token, tail)
    ensures BearerToken(header) == Some(token)
  {
    var t2 := token + tail;
    var t1 := gap + t2;
    var t0 := scheme + t1;
    assert header == lead + t0;
    assert t0[0] == scheme[0] && t1[0] == gap[0] && t2[0] == token[0];
    SpaceRunOf(lead, t0);
    WordRunOf(scheme, t1);
    SpaceRunOf(gap, t2);
    WordRunOf(token, tail);
  }

  /** Every string is its leading whitespace run and what follows. */
  lemma SpaceSplit(s: string)
    ensures var n := SpaceRun(s);
      && s == s[..n] + s[n..] && IsBlank(s[..n]) && (s[n..] == [] || !IsSpace(s[n..][0]))
  {
  }

  /** Every string is its leading word run and what follows. */
  lemma WordSplit(s: string)
    ensures var n := WordRun(s);
      && s == s[..n] + s[n..] && (n > 0 ==> IsWord(s[..n])) && (s[n..] == [] || IsSpace(s[n..][0]))
  {
  }

  /** What follows the scheme word, when it yields a token, is a gap, the
      token and a tail. */
  lemma AfterSchemeSound(after: string, token: string) returns (gap: string, tail: string)
    requires AfterScheme(after) == Some(token)
    ensures after == gap + token + tail
    ensures gap != [] && IsBlank(gap) && IsWord(token) && (tail == [] || IsSpace(tail[0]))
  {
    var g := SpaceRun(after);
    SpaceSplit(after);
    var rest := after[g..];
    WordSplit(rest);
    gap, tail := after[..g], rest[WordRun(rest)..];
    assert after == gap + (token + tail);
  }

  /** Whatever token a header yields, the header has that shape. */
  lemma BearerTokenSound(header: string, token: string)
    requires BearerToken(header) == Some(token)
    ensures exists lead, scheme, gap, tail :: BearerShape(header, lead, scheme, gap, token, tail)
  {
    var n := SpaceRun(header);
    SpaceSplit(header);
    var rest := header[n..];
    WordSplit(rest);
    var w := WordRun(rest);
    var gap, tail := AfterSchemeSound(rest[w..], token);
    Assemble(header, header[..n], rest, rest[..w], rest[w..], gap, token, tail);
  }

  /** Three nested splits make the flat shape. */
  lemma Assemble(header: string, lead: string, rest: string, scheme: string, after: string,
                 gap: string, token: string, tail: string)
    requires header == lead + rest && rest == scheme + after && after == gap + token + tail
    requires IsBlank(lead) && IsWord(scheme) && gap != [] && IsBlank(gap) && IsWord(token)
    requires tail == [] || IsSpace(tail[0])
    requires AsciiLower(scheme) == "bearer"
    ensures BearerShape(header, lead, scheme, gap, token, tail)
  {
    assert header == lead + scheme + gap + token + tail;
  }

  /** passport-jwt's extraction, characterised without reference to how it
      is computed: a header yields `token` exactly when it has the shape
      above around that token. */
  lemma BearerTokenExact(header: string, token: string)
    ensures BearerToken(header) == Some(token) <==>
      exists lead, scheme, gap, tail :: BearerShape(header, lead, scheme, gap, token, tail)
  {
    if BearerToken(header) == Some(token) {
      BearerTokenSound(header, token);
    }
    if exists lead, scheme, gap, tail :: BearerShape(header, lead, scheme, gap, token, tail) {
      var lead, scheme, gap, tail :| BearerShape(header, lead, scheme, gap, token, tail);
      BearerTokenComplete(header, lead, scheme, gap, token, tail);
    }
  }

  /** Every `b64token` is free of whitespace and spaces. */
  lemma B64TokenHasNoSpace(t: string)
    requires IsB64Token(t)
    ensures t != []
    ensures forall i | 0 <= i < |t| :: !IsSpace(t[i])
    ensures ' ' !in t
  {
    var k := |t| - PaddingRun(t);
    forall i | 0 <= i < |t|
      ensures !IsSpace(t[i])
    {
      if i < k { assert B64Char(t[i]); } else { assert t[i] == '='; }
    }
    assert IsSpace(' ');
  }

  /** The scheme word of the header, in any letter case. */
  predicate IsBearerScheme(scheme: string) {
    AsciiLower(scheme) == "bearer"
  }

  /** Section 2.1 of RFC 6750: `<scheme> SP b64token` with the scheme
      "Bearer" in any case yields exactly the token. */
  lemma BearerRoundTrip(scheme: string, t: string)
    requires IsBearerScheme(scheme)
    requires IsB64Token(t)
    ensures BearerToken(scheme + " " + t) == Some(t)
  {
    B64TokenHasNoSpace(t);
    forall i | 0 <= i < |scheme|
      ensures !IsSpace(scheme[i])
    {
      assert AsciiLower(scheme)[i] == "bearer"[i];
    }
    assert IsSpace(' ');
    assert scheme + " " + t == [] + scheme + " " + t + [];
    BearerTokenComplete(scheme + " " + t, [], scheme, " ", t, []);
  }

  /** The token `verifyToken` takes from `Bearer <b64token>` is the same. */
  lemma SecondFieldRoundTrip(scheme: string, t: string)
    requires ' ' !in scheme
    requires IsB64Token(t)
    ensures SecondField(scheme + " " + t) == Some(t)
  {
    B64TokenHasNoSpace(t);
    SplitOfPrefix(scheme, ' ', t);
    SplitOfPlain(t, ' ');
    assert scheme + " " + t == scheme + [' '] + t;
  }

  /** The claims of the Bearer token a header presents, when there is one
      and it verifies. */
  function Presented(jwt: Jwt, secret: string, header: string, now: int): (claims: Option<Claims>)
    ensures BearerToken(header).None? ==> claims.None?
    ensures BearerToken(header).Some? ==> claims == Verify(jwt, secret, BearerToken(header).value, now)
  {
    match BearerToken(header)
    case None => None
    case Some(token) => Verify(jwt, secret, token, now)
  }

  /** The passport strategy: 401 without a Bearer token or when it does
      not verify; the user lookup (query 0) failing is a 500 and never an
      admission; a verified token whose id names no user is a 401;
      otherwise the user row with that id is the principal. */
  function Authenticate(s: Store, jwt: Jwt, secret: string, header: string, now: int, f: Faults): (v: Verdict<Principal>)
    ensures Presented(jwt, secret, header, now).None? ==> v == Reject(Unauthorized, Plain(TextUnauthorized))
    ensures f.Fails(0) ==> v.Reject?
    ensures v.Admit? <==>
      Presented(jwt, secret, header, now).Some? && !f.Fails(0) && Presented(jwt, secret, header, now).value.id in s.users
    ensures v.Admit? ==>
      var id := Presented(jwt, secret, header, now).value.id;
      v.principal == Principal(id, s.users[id])
    ensures v.Reject? ==> v.status == Unauthorized || v.status == ServerError
    ensures v.Reject? && v.status == ServerError <==> Presented(jwt, secret, header, now).Some? && f.Fails(0)
  {
    match Presented(jwt, secret, header, now)
    case None => Reject(Unauthorized, Plain(TextUnauthorized))
    case Some(claims) =>
      if f.Fails(0) then Reject(ServerError, Plain(TextServerError))
      else if claims.id !in s.users then Reject(Unauthorized, Plain(TextUnauthorized))
      else Admit(Principal(claims.id, s.users[claims.id]))
  }

  /** A token issued for a registered user, presented as a Bearer token
      within its lifetime, admits exactly that user. */
  lemma IssuedTokenAdmitted(s: Store, jwt: Jwt, secret: string, scheme: string, id: int, email: string, iat: int, now: int)
    requires jwt.Sound()
    requires IsBearerScheme(scheme)
    requires id in s.users
    requires now < iat + Lifetime
    ensures Authenticate(s, jwt, secret, scheme + " " + Issue(jwt, secret, id, email, iat), now, NoFault)
      == Admit(Principal(id, s.users[id]))
  {
    IssuedTokenIsB64(jwt, secret, id, email, iat);
    BearerRoundTrip(scheme, Issue(jwt, secret, id, email, iat));
  }

  /** A genuine, unexpired token whose user no longer exists is refused. */
  lemma TokenOfMissingUserRejected(s: Store, jwt: Jwt, secret: string, scheme: string, id: int, email: string, iat: int, now: int, f: Faults)
    requires jwt.Sound()
    requires IsBearerScheme(scheme)
    requires id !in s.users
    ensures Authenticate(s, jwt, secret, scheme + " " + Issue(jwt, secret, id, email, iat), now, f).Reject?
  {
    IssuedTokenIsB64(jwt, secret, id, email, iat);
    BearerRoundTrip(scheme, Issue(jwt, secret, id, email, iat));
  }

  /** `verifyToken` lets an issued token through, with its claims, exactly
      within its lifetime, and answers 403 afterwards. */
  lemma VerifyTokenLifetime(jwt: Jwt, secret: string, id: int, email: string, iat: int, now: int)
    requires jwt.Sound()
    ensures
      var v := VerifyToken(jwt, secret, "Bearer " + Issue(jwt, secret, id, email, iat), now);
      && (now < iat + Lifetime ==> v == Admit(Claims(id, email, iat, iat + Lifetime)))
      && (now >= iat + Lifetime ==> v == Reject(Forbidden, Error(MsgBadToken)))
  {
    IssuedTokenIsB64(jwt, secret, id, email, iat);
    SecondFieldRoundTrip("Bearer", Issue(jwt, secret, id, email, iat));
    assert "Bearer" + " " + Issue(jwt, secret, id, email, iat) == "Bearer " + Issue(jwt, secret, id, email, iat);
  }

  /** On a well-formed `Bearer <b64token>` header the two gates extract the
      same token. */
  lemma GatesAgreeOnBearer(t: string)
    requires IsB64Token(t)
    ensures SecondField("Bearer " + t) == BearerToken("Bearer " + t) == Some(t)
  {
    assert IsBearerScheme("Bearer");
    BearerRoundTrip("Bearer", t);
    SecondFieldRoundTrip("Bearer", t);
    assert "Bearer" + " " + t == "Bearer " + t;
  }
}

=== FILE: http.dfy ===
/** What a handler answers: a status code and a JSON body, together with the
    database as the handler leaves it. */
module Http {
  import opened Base
  import opened Db
  import opened Numerals

  datatype Status = Ok | Created | BadRequest | Unauthorized | Forbidden | NotFound | ServerError

  /** One row of `GET /alumnos/:id/notas`. */
  datatype StudentGrade = StudentGrade(alumno: string, materia: string, nota1: real, nota2: real, nota3: real, promedio: real)

  /** One row of `GET /materias/:id/alumnos`. */
  datatype SubjectGrade = SubjectGrade(alumno: string, nota1: real, nota2: real, nota3: real, promedio: real)

  /** The JSON bodies the routes send. Result sets whose SQL has no ORDER BY
      are keyed by the primary key of the row they come from. */
  datatype Body =
    | Message(text: string)               // { message } or { mensaje }
    | Error(text: string)                 // { error }
    | Errors(messages: seq<string>)       // { errors }: one entry per failed validator, in order
    | Plain(text: string)                 // a plain-text body written by passport or Express
    | Token(token: string)                // { token }
    | NotaCreated(id: int)                // { mensaje, id: insertId }
    | Alumnos(alumnos: map<int, Alumno>)
    | OneAlumno(id: int, alumno: Alumno)
    | Materias(materias: map<int, Materia>)
    | OneMateria(id: int, materia: Materia)
    | Notas(notas: map<int, Nota>)
    | OneNota(id: int, nota: Nota)
    | StudentGrades(studentRows: map<int, StudentGrade>)
    | SubjectGrades(subjectRows: map<int, SubjectGrade>)
    | StudentAverage(nombre: string, promedio: real)
    | PairAverage(promedio: real)
    | Names(names: map<int, string>)

  datatype Response = Response(store: Store, status: Status, body: Body)

  /** `handleValidationErrors`: when any validator of the route failed, the
      request ends here with 400 and the messages, before the handler (and
      so the store) is reached; otherwise the handler runs. */
  function HandleValidationErrors(s: Store, errors: seq<string>): (halt: Option<Response>)
    ensures halt.Some? <==> errors != []
    ensures halt.Some? ==> halt.value.store == s && halt.value.status == BadRequest && halt.value.body == Errors(errors)
  {
    if errors != [] then Some(Response(s, BadRequest, Errors(errors))) else None
  }

  /** The message list of an `isInt()` check on `value`. */
  function IntErrors(value: string, message: string): (errors: seq<string>)
    ensures errors == [] <==> IsInt(value)
  {
    if IsInt(value) then [] else [message]
  }

  /** The message list of an `isFloat({ min: 0, max: 10 })` check; `None`
      stands for a field that is absent or is not a number. */
  function ScoreErrors(value: Option<real>, message: string): (errors: seq<string>)
    ensures errors == [] <==> value.Some? && InScale(value.value)
  {
    if value.Some? && InScale(value.value) then [] else [message]
  }
}

=== FILE: jstext.dfy ===
/** The JavaScript string operations the two token gates rely on:
    `String.prototype.split` with a one-character separator, the `\s`
    character class of regular expressions, and ASCII lower-casing. */
module JsText {

  /** `s.split(sep)`: the maximal runs between separators, empty runs included. */
  function Split(s: string, sep: char): (parts: seq<string>)
    ensures |parts| >= 1
    ensures forall i | 0 <= i < |parts| :: sep !in parts[i]
    decreases |s|
  {
    if s == [] then [""]
    else
      var rest := Split(s[1..], sep);
      if s[0] == sep then [""] + rest
      else [[s[0]] + rest[0]] + rest[1..]
  }

  /** `parts.join(sep)`. */
  function Join(parts: seq<string>, sep: char): string
    requires |parts| >= 1
    decreases |parts|
  {
    if |parts| == 1 then parts[0] else parts[0] + [sep] + Join(parts[1..], sep)
  }

  /** Joining the pieces of a split gives the original string back. */
  lemma {:induction false} JoinOfSplit(s: string, sep: char)
    ensures Join(Split(s, sep), sep) == s
    decreases |s|
  {
    if s != [] {
      JoinOfSplit(s[1..], sep);
      var rest := Split(s[1..], sep);
      if s[0] != sep {
        var parts := Split(s, sep);
        assert parts[1..] == rest[1..];
        if |rest| > 1 {
          assert Join(rest, sep) == rest[0] + [sep] + Join(rest[1..], sep);
        }
      }
    }
  }

  /** A string without the separator splits into itself alone. */
  lemma {:induction false} SplitOfPlain(w: string, sep: char)
    requires sep !in w
    ensures Split(w, sep) == [w]
    decreases |w|
  {
    if w != [] {
      SplitOfPlain(w[1..], sep);
      assert [w[0]] + w[1..] == w;
    }
  }

  /** A separator-free prefix followed by the separator becomes the first piece. */
  lemma {:induction false} SplitOfPrefix(w: string, sep: char, rest: string)
    requires sep !in w
    ensures Split(w + [sep] + rest, sep) == [w] + Split(rest, sep)
    decreases |w|
  {
    if w == [] {
      assert w + [sep] + rest == [sep] + rest;
      assert ([sep] + rest)[1..] == rest;
    } else {
      SplitOfPrefix(w[1..], sep, rest);
      var s := w + [sep] + rest;
      assert s[1..] == w[1..] + [sep] + rest;
      assert [w[0]] + w[1..] == w;
    }
  }

  /** The first piece of a split is a prefix of the string, ended by the
      separator or by the end of the string. */
  lemma {:induction false} FirstPiece(s: string, sep: char)
    ensures var p := Split(s, sep)[0];
      |p| <= |s| && s[..|p|] == p && (|p| == |s| || s[|p|] == sep)
    decreases |s|
  {
    if s != [] && s[0] != sep {
      FirstPiece(s[1..], sep);
    }
  }

  /** Splitting what was joined from separator-free pieces gives the pieces back. */
  lemma {:induction false} SplitOfJoin(parts: seq<string>, sep: char)
    requires |parts| >= 1
    requires forall i | 0 <= i < |parts| :: sep !in parts[i]
    ensures Split(Join(parts, sep), sep) == parts
    decreases |parts|
  {
    if |parts| == 1 {
      SplitOfPlain(parts[0], sep);
    } else {
      SplitOfJoin(parts[1..], sep);
      SplitOfPrefix(parts[0], sep, Join(parts[1..], sep));
      assert [parts[0]] + parts[1..] == parts;
    }
  }

  /** The `\s` class of JavaScript regular expressions. */
  predicate IsSpace(c: char) {
    || c == ' ' || c == '\t' || c == '\n' || c == '\r' || c == '\U{000B}' || c == '\U{000C}'
    || c == '\U{00A0}' || c == '\U{1680}' || ('\U{2000}' <= c <= '\U{200A}')
    || c == '\U{2028}' || c == '\U{2029}' || c == '\U{202F}' || c == '\U{205F}'
    || c == '\U{3000}' || c == '\U{FEFF}'
  }

  /** The length of the run of whitespace that starts `s`. */
  function SpaceRun(s: string): (n: nat)
    ensures n <= |s|
    ensures forall i | 0 <= i < n :: IsSpace(s[i])
    ensures n < |s| ==> !IsSpace(s[n])
    decreases |s|
  {
    if s != [] && IsSpace(s[0]) then 1 + SpaceRun(s[1..]) else 0
  }

  /** The length of the run of non-whitespace that starts `s`. */
  function WordRun(s: string): (n: nat)
    ensures n <= |s|
    ensures forall i | 0 <= i < n :: !IsSpace(s[i])
    ensures n < |s| ==> IsSpace(s[n])
    decreases |s|
  {
    if s != [] && !IsSpace(s[0]) then 1 + WordRun(s[1..]) else 0
  }

  /** `toLowerCase()` restricted to ASCII letters; exact for comparisons
      against an all-ASCII lower-case word such as "bearer". */
  function AsciiLower(s: string): (r: string)
    ensures |r| == |s|
    ensures forall i | 0 <= i < |s| :: r[i] == (if 'A' <= s[i] <= 'Z' then (s[i] as int + 32) as char else s[i])
  {
    seq(|s|, i requires 0 <= i < |s| => if 'A' <= s[i] <= 'Z' then (s[i] as int + 32) as char else s[i])
  }
}

=== FILE: materias.dfy ===
/** The `/materias` router: subject CRUD behind express-validator checks
    (an integer `:id`, a non-empty alphabetic `nombre`), the cascade delete
    of a subject's grades, and the two per-subject aggregate queries. */
module Materias {
  import opened Base
  import opened Db
  import opened Http
  import opened Numerals

  const MsgIdNotInt := "El ID debe ser un número entero"
  const MsgNameRequired := "El nombre es obligatorio"
  const MsgNameLetters := "El nombre solo debe contener letras"
  const MsgListFailed := "Error al obtener materias"
  const MsgNotFound := "Materia no encontrada"
  const MsgGetFailed := "Error al obtener materia"
  const MsgCreated := "Materia creada correctamente"
  const MsgCreateFailed := "Error al crear materia"
  const MsgUpdated := "Materia actualizada correctamente"
  const MsgUpdateFailed := "Error al actualizar materia"
  const MsgDeleted := "Materia y sus notas eliminadas correctamente"
  const MsgDeleteFailed := "Error al eliminar materia"
  const MsgNoStudents := "No hay alumnos con notas en esta materia"
  const MsgStudentsFailed := "Error al obtener alumnos por materia"
  const MsgNothingPending := "Todos los alumnos tienen notas en esta materia"
  const MsgPendingFailed := "Error al obtener alumnos pendientes"

  /** The letters of the `es-ES` alphabet of `isAlpha`, in either case. */
  predicate IsLetter(c: char) {
    || 'A' <= c <= 'Z' || 'a' <= c <= 'z'
    || c in "\U{C1}\U{C9}\U{CD}\U{D1}\U{D3}\U{DA}\U{DC}\U{E1}\U{E9}\U{ED}\U{F1}\U{F3}\U{FA}\U{FC}"
  }

  predicate IsLetterOrSpace(c: char) {
    IsLetter(c) || c == ' '
  }

  /** The `ignore: ' '` option: spaces are deleted before the alphabet test. */
  function RemoveSpaces(s: string): (t: string)
    ensures ' ' !in t
    ensures |t| <= |s|
    decreases |s|
  {
    if s == [] then [] else if s[0] == ' ' then RemoveSpaces(s[1..]) else [s[0]] + RemoveSpaces(s[1..])
  }

  /** `isAlpha('es-ES', { ignore: ' ' })`: what is left after deleting the
      spaces is a non-empty run of letters. */
  predicate IsAlphaEs(s: string) {
    var t := RemoveSpaces(s);
    |t| > 0 && forall i | 0 <= i < |t| :: IsLetter(t[i])
  }

  /** The names the two write routes accept, stated without the deletion step. */
  predicate AcceptableName(s: string) {
    && (forall i | 0 <= i < |s| :: IsLetterOrSpace(s[i]))
    && (exists i | 0 <= i < |s| :: s[i] != ' ')
  }

  /** Deleting the spaces and testing the rest is the same as asking for
      letters and spaces only, with at least one letter. */
  lemma {:induction false} IsAlphaEsMeansAcceptable(s: string)
    ensures IsAlphaEs(s) <==> AcceptableName(s)
    decreases |s|
  {
    if s != [] {
      IsAlphaEsMeansAcceptable(s[1..]);
      var t := RemoveSpaces(s);
      var u := RemoveSpaces(s[1..]);
      if s[0] == ' ' {
        assert t == u;
        if AcceptableName(s[1..]) {
          var i :| 0 <= i < |s[1..]| && s[1..][i] != ' ';
          assert s[i + 1] != ' ';
        }
        if AcceptableName(s) {
          var i :| 0 <= i < |s| && s[i] != ' ';
          assert s[1..][i - 1] != ' ';
        }
      } else {
        assert t == [s[0]] + u;
        assert t[0] == s[0] && t[1..] == u;
        if IsAlphaEs(s) {
          assert IsLetter(s[0]);
          if u != [] {
            assert forall i | 0 <= i < |u| :: u[i] == t[i + 1];
            assert AcceptableName(s[1..]);
          } else {
            assert forall i | 0 <= i < |s[1..]| :: s[1..][i] == ' ' by {
              NoLettersLeft(s[1..]);
            }
          }
          assert forall i | 1 <= i < |s| :: s[i] == s[1..][i - 1];
        }
        if AcceptableName(s) {
          assert IsLetter(s[0]);
          assert forall i | 0 <= i < |s[1..]| :: IsLetterOrSpace(s[1..][i]);
          LettersKept(s[1..]);
          assert forall i | 1 <= i < |t| :: t[i] == u[i - 1];
        }
      }
    }
  }

  /** Nothing but spaces is left when the deletion leaves nothing. */
  lemma {:induction false} NoLettersLeft(s: string)
    requires RemoveSpaces(s) == []
    ensures forall i | 0 <= i < |s| :: s[i] == ' '
    decreases |s|
  {
    if s != [] {
      NoLettersLeft(s[1..]);
      assert forall i | 1 <= i < |s| :: s[i] == s[1..][i - 1];
    }
  }

  /** Letters and spaces in, letters out. */
  lemma {:induction false} LettersKept(s: string)
    requires forall i | 0 <= i < |s| :: IsLetterOrSpace(s[i])
    ensures forall i | 0 <= i < |RemoveSpaces(s)| :: IsLetter(RemoveSpaces(s)[i])
    decreases |s|
  {
    if s != [] {
      assert forall i | 0 <= i < |s[1..]| :: IsLetterOrSpace(s[1..][i]);
      LettersKept(s[1..]);
    }
  }

  /** The validator messages for `param('id').isInt()`. */
  function IdErrors(id: string): (errors: seq<string>)
    ensures errors == [] <==> IsInt(id)
  {
    IntErrors(id, MsgIdNotInt)
  }

  /** The validator messages for `body('nombre').notEmpty().isAlpha(...)`;
      both checks run, so a missing name yields two messages. */
  function NameErrors(nombre: string): (errors: seq<string>)
    ensures errors == [] <==> AcceptableName(nombre)
    ensures nombre == "" ==> errors == [MsgNameRequired, MsgNameLetters]
  {
    IsAlphaEsMeansAcceptable(nombre);
    (if nombre == "" then [MsgNameRequired] else []) + (if IsAlphaEs(nombre) then [] else [MsgNameLetters])
  }

  /** `GET /`: every subject. */
  function List(s: Store, f: Faults): (r: Response)
    ensures f.Fails(0) ==> r == Response(s, ServerError, Error(MsgListFailed))
    ensures r.store == s
    ensures r.status == Ok <==> !f.Fails(0)
    ensures r.status == Ok ==> r.body == Materias(s.materias)
  {
    if f.Fails(0) then Response(s, ServerError, Error(MsgListFailed))
    else Response(s, Ok, Materias(s.materias))
  }

  /** `GET /:id`: 400 for a non-integer id, then the row or 404. */
  function Get(s: Store, id: string, f: Faults): (r: Response)
    ensures IsInt(id) && f.Fails(0) ==> r == Response(s, ServerError, Error(MsgGetFailed))
    ensures r.store == s
    ensures !IsInt(id) ==> r.status == BadRequest
    ensures r.status == Ok <==> IsInt(id) && !f.Fails(0) && ToInt(id) in s.materias
    ensures r.status == NotFound <==> IsInt(id) && !f.Fails(0) && ToInt(id) !in s.materias
    ensures r.status == Ok ==> r.body == OneMateria(ToInt(id), s.materias[ToInt(id)])
  {
    match HandleValidationErrors(s, IdErrors(id))
    case Some(halt) => halt
    case None =>
      var key := ToInt(id);
      if f.Fails(0) then Response(s, ServerError, Error(MsgGetFailed))
      else if key !in s.materias then Response(s, NotFound, Error(MsgNotFound))
      else Response(s, Ok, OneMateria(key, s.materias[key]))
  }

  /** `POST /`: an acceptable name is inserted under the next id. */
  function Create(s: Store, nombre: string, f: Faults): (r: Response)
    ensures AcceptableName(nombre) && f.Fails(0) ==> r == Response(s, ServerError, Error(MsgCreateFailed))
    ensures !AcceptableName(nombre) ==> r == Response(s, BadRequest, Errors(NameErrors(nombre)))
    ensures r.status == Created <==> AcceptableName(nombre) && !f.Fails(0)
    ensures r.status != Created ==> r.store == s
    ensures r.status == Created ==>
      && r.store.materias.Keys == s.materias.Keys + {s.nextMateria}
      && r.store.materias[s.nextMateria] == Materia(nombre)
      && (forall k | k in s.materias && k != s.nextMateria :: r.store.materias[k] == s.materias[k])
      && r.store.(materias := s.materias, nextMateria := s.nextMateria) == s
      && r.store.nextMateria > s.nextMateria
  {
    match HandleValidationErrors(s, NameErrors(nombre))
    case Some(halt) => halt
    case None =>
      if f.Fails(0) then Response(s, ServerError, Error(MsgCreateFailed))
      else
        var id := s.nextMateria;
        Response(s.(materias := s.materias[id := Materia(nombre)], nextMateria := id + 1), Created, Message(MsgCreated))
  }

  /** `PUT /:id`: renames an existing subject. */
  function Update(s: Store, id: string, nombre: string, f: Faults): (r: Response)
    ensures IsInt(id) && AcceptableName(nombre) && f.Fails(0) ==> r == Response(s, ServerError, Error(MsgUpdateFailed))
    ensures !IsInt(id) || !AcceptableName(nombre) ==>
      r == Response(s, BadRequest, Errors(IdErrors(id) + NameErrors(nombre)))
    ensures r.status == NotFound <==> IsInt(id) && AcceptableName(nombre) && !f.Fails(0) && ToInt(id) !in s.materias
    ensures r.status == Ok <==> IsInt(id) && AcceptableName(nombre) && !f.Fails(0) && ToInt(id) in s.materias
    ensures r.status != Ok ==> r.store == s
    ensures r.status == Ok ==>
      && r.store.materias.Keys == s.materias.Keys
      && r.store.materias[ToInt(id)] == Materia(nombre)
      && (forall k | k in s.materias && k != ToInt(id) :: r.store.materias[k] == s.materias[k])
      && r.store.(materias := s.materias) == s
  {
    match HandleValidationErrors(s, IdErrors(id) + NameErrors(nombre))
    case Some(halt) => halt
    case None =>
      var key := ToInt(id);
      if f.Fails(0) then Response(s, ServerError, Error(MsgUpdateFailed))
      else if key !in s.materias then Response(s, NotFound, Error(MsgNotFound))
      else Response(s.(materias := s.materias[key := Materia(nombre)]), Ok, Message(MsgUpdated))
  }

  /** `DELETE /:id`: `DELETE FROM notas WHERE materia_id = ?` (query 0), then
      `DELETE FROM materias WHERE id = ?` (query 1), outside a transaction. */
  function Delete(s: Store, id: string, f: Faults): (r: Response)
    ensures IsInt(id) && f.Fails(0) ==> r == Response(s, ServerError, Error(MsgDeleteFailed))
    ensures IsInt(id) && f.Fails(1) ==> r.status == ServerError && r.body == Error(MsgDeleteFailed)
    ensures !IsInt(id) ==> r == Response(s, BadRequest, Errors([MsgIdNotInt]))
    ensures !IsInt(id) || f.Fails(0) ==> r.store == s
    ensures IsInt(id) && !f.Fails(0) ==> GradesOfMateria(r.store.notas, ToInt(id)) == {}
    ensures IsInt(id) && !f.Fails(0) ==>
      forall k :: k in r.store.notas <==> k in s.notas && s.notas[k].materia != ToInt(id)
    ensures forall k | k in r.store.notas :: k in s.notas && r.store.notas[k] == s.notas[k]
    ensures r.status == Ok <==> IsInt(id) && !f.Fails(0) && !f.Fails(1) && ToInt(id) in s.materias
    ensures r.status == NotFound <==> IsInt(id) && !f.Fails(0) && !f.Fails(1) && ToInt(id) !in s.materias
    ensures r.store.materias == if r.status == Ok then s.materias - {ToInt(id)} else s.materias
    ensures r.store.(notas := s.notas, materias := s.materias) == s
  {
    match HandleValidationErrors(s, IdErrors(id))
    case Some(halt) => halt
    case None =>
      var key := ToInt(id);
      if f.Fails(0) then Response(s, ServerError, Error(MsgDeleteFailed))
      else
        var s1 := s.(notas := DropMateriaGrades(s.notas, key));
        if f.Fails(1) then Response(s1, ServerError, Error(MsgDeleteFailed))
        else if key !in s1.materias then Response(s1, NotFound, Error(MsgNotFound))
        else Response(s1.(materias := s1.materias - {key}), Ok, Message(MsgDeleted))
  }

  /** The rows of `/:id/alumnos`: grades in subject `id` inner-joined with
      their student, keyed by grade id. */
  function Roster(s: Store, id: int): map<int, SubjectGrade> {
    map k | k in s.notas && s.notas[k].materia == id && s.notas[k].alumno in s.alumnos ::
      var n := s.notas[k];
      SubjectGrade(s.alumnos[n.alumno].nombre, n.nota1, n.nota2, n.nota3, Average(n))
  }

  /** `GET /:id/alumnos`: one row per grade in the subject whose student
      still exists, with its average; an empty result is a 404. */
  function Students(s: Store, id: string, f: Faults): (r: Response)
    ensures IsInt(id) && f.Fails(0) ==> r == Response(s, ServerError, Error(MsgStudentsFailed))
    ensures r.store == s
    ensures r.status == BadRequest <==> !IsInt(id)
    ensures r.status == NotFound <==>
      IsInt(id) && !f.Fails(0) && forall k | k in GradesOfMateria(s.notas, ToInt(id)) :: s.notas[k].alumno !in s.alumnos
    ensures r.status == Ok <==>
      IsInt(id) && !f.Fails(0) && exists k | k in GradesOfMateria(s.notas, ToInt(id)) :: s.notas[k].alumno in s.alumnos
    ensures r.status == Ok ==> r.body.SubjectGrades?
    ensures r.status == Ok ==> forall k ::
      k in r.body.subjectRows <==> k in GradesOfMateria(s.notas, ToInt(id)) && s.notas[k].alumno in s.alumnos
    ensures r.status == Ok ==> forall k | k in r.body.subjectRows ::
      var n := s.notas[k];
      var row := r.body.subjectRows[k];
      && row.alumno == s.alumnos[n.alumno].nombre
      && row.nota1 == n.nota1 && row.nota2 == n.nota2 && row.nota3 == n.nota3
      && row.promedio * 3.0 == n.nota1 + n.nota2 + n.nota3
  {
    match HandleValidationErrors(s, IdErrors(id))
    case Some(halt) => halt
    case None =>
      if f.Fails(0) then Response(s, ServerError, Error(MsgStudentsFailed))
      else
        var key := ToInt(id);
        var rows := Roster(s, key);
        assert forall k | k in GradesOfMateria(s.notas, key) && s.notas[k].alumno in s.alumnos :: k in rows;
        if rows == map[] then Response(s, NotFound, Error(MsgNoStudents))
        else
          assert exists k | k in GradesOfMateria(s.notas, key) :: s.notas[k].alumno in s.alumnos by {
            var k := Tables.Member(rows.Keys);
          }
          Response(s, Ok, SubjectGrades(rows))
  }

  /** `GET /:id/alumnos-pendientes`: the students left-joined with their
      grades in the subject, keeping those with no match; "nothing pending"
      is a 404. The subject row itself is not consulted. */
  function PendingStudents(s: Store, id: string, f: Faults): (r: Response)
    ensures IsInt(id) && f.Fails(0) ==> r == Response(s, ServerError, Error(MsgPendingFailed))
    ensures r.store == s
    ensures r.status == BadRequest <==> !IsInt(id)
    ensures r.status == NotFound <==> IsInt(id) && !f.Fails(0) && s.alumnos.Keys <= StudentsGradedIn(s.notas, ToInt(id))
    ensures r.status == Ok <==>
      IsInt(id) && !f.Fails(0) && exists a | a in s.alumnos :: a !in StudentsGradedIn(s.notas, ToInt(id))
    ensures r.status == Ok ==>
      IsInt(id) && r.body.Names? && r.body.names.Keys == s.alumnos.Keys - StudentsGradedIn(s.notas, ToInt(id))
    ensures r.status == Ok ==> forall a | a in r.body.names :: r.body.names[a] == s.alumnos[a].nombre
  {
    match HandleValidationErrors(s, IdErrors(id))
    case Some(halt) => halt
    case None =>
      if f.Fails(0) then Response(s, ServerError, Error(MsgPendingFailed))
      else
        var key := ToInt(id);
        var pending := map a | a in s.alumnos && !(exists k | k in s.notas :: s.notas[k].alumno == a && s.notas[k].materia == key)
          :: s.alumnos[a].nombre;
        if pending == map[] then
          assert forall a | a in s.alumnos :: a in StudentsGradedIn(s.notas, key) by {
            forall a | a in s.alumnos ensures a in StudentsGradedIn(s.notas, key) {
              assert a !in pending;
            }
          }
          Response(s, NotFound, Error(MsgNothingPending))
        else Response(s, Ok, Names(pending))
  }

  /** A non-empty name of spaces only passes `notEmpty` but not `isAlpha`. */
  lemma BlankNameRejected(nombre: string)
    requires nombre != [] && forall i | 0 <= i < |nombre| :: nombre[i] == ' '
    ensures NameErrors(nombre) == [MsgNameLetters]
  {
    IsAlphaEsMeansAcceptable(nombre);
  }

  /** A create keeps the store consistent: the new subject takes a key no
      row had. */
  lemma CreatePreservesValid(s: Store, nombre: string, f: Faults)
    requires Valid(s)
    ensures Valid(Create(s, nombre, f).store)
  {
    var c := Create(s, nombre, f);
    if c.status == Created {
      assert s.nextMateria !in s.materias;
      assert c.store.materias == s.materias[s.nextMateria := Materia(nombre)];
    }
  }

  /** A rename keeps the store consistent. */
  lemma UpdatePreservesValid(s: Store, id: string, nombre: string, f: Faults)
    requires Valid(s)
    ensures Valid(Update(s, id, nombre, f).store)
  {
  }

  /** A delete keeps the store consistent: the subject's grades go before
      the subject, so no grade is left pointing at it. */
  lemma DeletePreservesValid(s: Store, id: string, f: Faults)
    requires Valid(s)
    ensures Valid(Delete(s, id, f).store)
  {
    var r := Delete(s, id, f);
    if s.foreignKeys {
      forall k | k in r.store.notas
        ensures r.store.notas[k].alumno in r.store.alumnos && r.store.notas[k].materia in r.store.materias
      {
        assert k in s.notas && r.store.notas[k] == s.notas[k];
        if IsInt(id) && !f.Fails(0) {
          assert s.notas[k].materia != ToInt(id);
        }
      }
    }
  }

  /** On a consistent store with foreign keys, deleting a missing subject is
      a 404 that changes nothing. */
  lemma DeleteMissingIsNoop(s: Store, id: string, f: Faults)
    requires Valid(s) && s.foreignKeys
    requires IsInt(id) && ToInt(id) !in s.materias && !f.Fails(0) && !f.Fails(1)
    ensures Delete(s, id, f) == Response(s, NotFound, Error(MsgNotFound))
  {
    forall k | k in s.notas ensures s.notas[k].materia != ToInt(id) {
      assert s.notas[k].materia in s.materias;
    }
    assert Delete(s, id, f).store.notas == s.notas;
  }

  /** Once a subject is deleted, its roster is a 404. */
  lemma RosterGoneAfterDelete(s: Store, id: string, f: Faults, g: Faults)
    requires IsInt(id) && !f.Fails(0) && !g.Fails(0)
    ensures Students(Delete(s, id, f).store, id, g).status == NotFound
  {
    var t := Delete(s, id, f).store;
    assert GradesOfMateria(t.notas, ToInt(id)) == {};
  }
}

=== FILE: notas.dfy ===
/** The `/notas` router: grade CRUD behind express-validator checks (integer
    ids, each score a number in [0, 10]) and the per-student-per-subject
    average. Creating a grade does not check that the student or the
    subject exists; only a foreign-key constraint in the store can refuse it. */
module Notas {
  import opened Base
  import opened Tables
  import opened Db
  import opened Http
  import opened Numerals

  const MsgListFailed := "Error al obtener notas"
  const MsgIdNotInt := "El ID debe ser un número entero"
  const MsgNotFound := "Nota no encontrada"
  const MsgGetFailed := "Error al obtener nota"
  const MsgAlumnoIdNotInt := "El alumno_id debe ser un número entero"
  const MsgMateriaIdNotInt := "El materia_id debe ser un número entero"
  const MsgNota1 := "La nota1 debe estar entre 0 y 10"
  const MsgNota2 := "La nota2 debe estar entre 0 y 10"
  const MsgNota3 := "La nota3 debe estar entre 0 y 10"
  const MsgInsertFailed := "Error al insertar notas"
  const MsgRecordNotFound := "Registro de notas no encontrado"
  const MsgUpdated := "Notas actualizadas correctamente"
  const MsgUpdateFailed := "Error al actualizar notas"
  const MsgDeleted := "Notas eliminadas correctamente"
  const MsgDeleteFailed := "Error al eliminar notas"
  const MsgAlumnoParamNotInt := "El alumnoId debe ser un número entero"
  const MsgMateriaParamNotInt := "El materiaId debe ser un número entero"
  const MsgNoAverage := "No hay notas para calcular promedio"
  const MsgAverageFailed := "Error al calcular promedio"

  /** All three scores are present, numeric and within the scale. */
  predicate ScoresOk(nota1: Option<real>, nota2: Option<real>, nota3: Option<real>) {
    && nota1.Some? && InScale(nota1.value)
    && nota2.Some? && InScale(nota2.value)
    && nota3.Some? && InScale(nota3.value)
  }

  function ScoresErrors(nota1: Option<real>, nota2: Option<real>, nota3: Option<real>): (errors: seq<string>)
    ensures errors == [] <==> ScoresOk(nota1, nota2, nota3)
  {
    ScoreErrors(nota1, MsgNota1) + ScoreErrors(nota2, MsgNota2) + ScoreErrors(nota3, MsgNota3)
  }

  /** `GET /`: every grade row. */
  function List(s: Store, f: Faults): (r: Response)
    ensures f.Fails(0) ==> r == Response(s, ServerError, Error(MsgListFailed))
    ensures r.store == s
    ensures r.status == Ok <==> !f.Fails(0)
    ensures r.status == Ok ==> r.body == Notas(s.notas)
  {
    if f.Fails(0) then Response(s, ServerError, Error(MsgListFailed))
    else Response(s, Ok, Notas(s.notas))
  }

  /** `GET /:id`: 400 for a non-integer id, then the row or 404. */
  function Get(s: Store, id: string, f: Faults): (r: Response)
    ensures IsInt(id) && f.Fails(0) ==> r == Response(s, ServerError, Error(MsgGetFailed))
    ensures r.store == s
    ensures !IsInt(id) ==> r.status == BadRequest
    ensures r.status == Ok <==> IsInt(id) && !f.Fails(0) && ToInt(id) in s.notas
    ensures r.status == NotFound <==> IsInt(id) && !f.Fails(0) && ToInt(id) !in s.notas
    ensures r.status == Ok ==> r.body == OneNota(ToInt(id), s.notas[ToInt(id)])
  {
    match HandleValidationErrors(s, IntErrors(id, MsgIdNotInt))
    case Some(halt) => halt
    case None =>
      var key := ToInt(id);
      if f.Fails(0) then Response(s, ServerError, Error(MsgGetFailed))
      else if key !in s.notas then Response(s, NotFound, Error(MsgNotFound))
      else Response(s, Ok, OneNota(key, s.notas[key]))
  }

  /** `POST /`: both ids must be integers and every score in [0, 10];
      the row is inserted as given, under the next AUTO_INCREMENT id, unless
      the store's foreign keys refuse a missing student or subject (500).
      InnoDB draws the AUTO_INCREMENT value before the constraint check and
      does not give it back, so a refused insert still moves the counter on. */
  function Create(s: Store, alumnoId: string, materiaId: string,
                  nota1: Option<real>, nota2: Option<real>, nota3: Option<real>, f: Faults): (r: Response)
    ensures IsInt(alumnoId) && IsInt(materiaId) && ScoresOk(nota1, nota2, nota3) && f.Fails(0) ==>
      r == Response(s, ServerError, Error(MsgInsertFailed))
    ensures !(IsInt(alumnoId) && IsInt(materiaId) && ScoresOk(nota1, nota2, nota3)) ==>
      r.store == s && r.status == BadRequest
    ensures r.status == Created <==>
      && IsInt(alumnoId) && IsInt(materiaId) && ScoresOk(nota1, nota2, nota3) && !f.Fails(0)
      && (s.foreignKeys ==> ToInt(alumnoId) in s.alumnos && ToInt(materiaId) in s.materias)
    ensures f.Fails(0) ==> r.store == s
    ensures r.status != Created ==> r.store.notas == s.notas && r.store.(nextNota := s.nextNota) == s
    ensures r.status != Created && r.store != s <==>
      && IsInt(alumnoId) && IsInt(materiaId) && ScoresOk(nota1, nota2, nota3) && !f.Fails(0)
      && s.foreignKeys && (ToInt(alumnoId) !in s.alumnos || ToInt(materiaId) !in s.materias)
    ensures r.status != Created && r.store != s ==>
      r.status == ServerError && r.body == Error(MsgInsertFailed) && r.store.nextNota == s.nextNota + 1
    ensures r.status == Created ==>
      && r.body == NotaCreated(s.nextNota)
      && r.store.notas.Keys == s.notas.Keys + {s.nextNota}
      && r.store.notas[s.nextNota] == Nota(ToInt(alumnoId), ToInt(materiaId), nota1.value, nota2.value, nota3.value)
      && (forall k | k in s.notas && k != s.nextNota :: r.store.notas[k] == s.notas[k])
      && r.store.(notas := s.notas, nextNota := s.nextNota) == s
      && r.store.nextNota > s.nextNota
  {
    var errors := IntErrors(alumnoId, MsgAlumnoIdNotInt) + IntErrors(materiaId, MsgMateriaIdNotInt)
                  + ScoresErrors(nota1, nota2, nota3);
    match HandleValidationErrors(s, errors)
    case Some(halt) => halt
    case None =>
      var a := ToInt(alumnoId);
      var m := ToInt(materiaId);
      if f.Fails(0) then Response(s, ServerError, Error(MsgInsertFailed))
      else if s.foreignKeys && (a !in s.alumnos || m !in s.materias) then
        Response(s.(nextNota := s.nextNota + 1), ServerError, Error(MsgInsertFailed))
      else
        var id := s.nextNota;
        Response(s.(notas := s.notas[id := Nota(a, m, nota1.value, nota2.value, nota3.value)], nextNota := id + 1),
                 Created, NotaCreated(id))
  }

  /** `PUT /:id`: replaces the three scores of an existing row; the student
      and subject of the row are left as they were. */
  function Update(s: Store, id: string, nota1: Option<real>, nota2: Option<real>, nota3: Option<real>, f: Faults): (r: Response)
    ensures IsInt(id) && ScoresOk(nota1, nota2, nota3) && f.Fails(0) ==> r == Response(s, ServerError, Error(MsgUpdateFailed))
    ensures !(IsInt(id) && ScoresOk(nota1, nota2, nota3)) ==> r.store == s && r.status == BadRequest
    ensures r.status == NotFound <==> IsInt(id) && ScoresOk(nota1, nota2, nota3) && !f.Fails(0) && ToInt(id) !in s.notas
    ensures r.status == Ok <==> IsInt(id) && ScoresOk(nota1, nota2, nota3) && !f.Fails(0) && ToInt(id) in s.notas
    ensures r.status != Ok ==> r.store == s
    ensures r.status == Ok ==>
      var key := ToInt(id);
      && r.store.notas.Keys == s.notas.Keys
      && r.store.notas[key].alumno == s.notas[key].alumno
      && r.store.notas[key].materia == s.notas[key].materia
      && r.store.notas[key].nota1 == nota1.value
      && r.store.notas[key].nota2 == nota2.value
      && r.store.notas[key].nota3 == nota3.value
      && (forall k | k in s.notas && k != key :: r.store.notas[k] == s.notas[k])
      && r.store.(notas := s.notas) == s
  {
    match HandleValidationErrors(s, IntErrors(id, MsgIdNotInt) + ScoresErrors(nota1, nota2, nota3))
    case Some(halt) => halt
    case None =>
      var key := ToInt(id);
      if f.Fails(0) then Response(s, ServerError, Error(MsgUpdateFailed))
      else if key !in s.notas then Response(s, NotFound, Error(MsgRecordNotFound))
      else
        var old_ := s.notas[key];
        Response(s.(notas := s.notas[key := old_.(nota1 := nota1.value, nota2 := nota2.value, nota3 := nota3.value)]),
                 Ok, Message(MsgUpdated))
  }

  /** `DELETE /:id`: removes exactly the row with that id. */
  function Delete(s: Store, id: string, f: Faults): (r: Response)
    ensures IsInt(id) && f.Fails(0) ==> r == Response(s, ServerError, Error(MsgDeleteFailed))
    ensures !IsInt(id) ==> r.store == s && r.status == BadRequest
    ensures r.status == NotFound <==> IsInt(id) && !f.Fails(0) && ToInt(id) !in s.notas
    ensures r.status == Ok <==> IsInt(id) && !f.Fails(0) && ToInt(id) in s.notas
    ensures r.status != Ok ==> r.store == s
    ensures r.status == Ok ==>
      && r.store.notas.Keys == s.notas.Keys - {ToInt(id)}
      && (forall k | k in r.store.notas :: r.store.notas[k] == s.notas[k])
      && r.store.(notas := s.notas) == s
  {
    match HandleValidationErrors(s, IntErrors(id, MsgIdNotInt))
    case Some(halt) => halt
    case None =>
      var key := ToInt(id);
      if f.Fails(0) then Response(s, ServerError, Error(MsgDeleteFailed))
      else if key !in s.notas then Response(s, NotFound, Error(MsgRecordNotFound))
      else Response(s.(notas := s.notas - {key}), Ok, Message(MsgDeleted))
  }

  /** The grade rows of one student in one subject. */
  function GradesOfPair(notas: map<int, Nota>, alumno: int, materia: int): (ks: set<int>)
    ensures forall k :: k in ks <==> k in notas && notas[k].alumno == alumno && notas[k].materia == materia
  {
    set k | k in notas && notas[k].alumno == alumno && notas[k].materia == materia
  }

  /** `GET /:alumnoId/:materiaId/promedio`: the average of the first
      matching row (`rows[0]`, the least grade id); other rows of the same
      pair are ignored. No matching row is a 404. */
  function PairAverage(s: Store, alumnoId: string, materiaId: string, f: Faults): (r: Response)
    ensures IsInt(alumnoId) && IsInt(materiaId) && f.Fails(0) ==> r == Response(s, ServerError, Error(MsgAverageFailed))
    ensures r.store == s
    ensures r.status == BadRequest <==> !(IsInt(alumnoId) && IsInt(materiaId))
    ensures r.status == NotFound <==>
      IsInt(alumnoId) && IsInt(materiaId) && !f.Fails(0) && GradesOfPair(s.notas, ToInt(alumnoId), ToInt(materiaId)) == {}
    ensures r.status == Ok <==>
      IsInt(alumnoId) && IsInt(materiaId) && !f.Fails(0) && GradesOfPair(s.notas, ToInt(alumnoId), ToInt(materiaId)) != {}
    ensures r.status == Ok ==>
      var ks := GradesOfPair(s.notas, ToInt(alumnoId), ToInt(materiaId));
      exists k | k in ks ::
        && (forall j | j in ks :: k <= j)
        && r.body == Http.PairAverage(Average(s.notas[k]))
  {
    match HandleValidationErrors(s, IntErrors(alumnoId, MsgAlumnoParamNotInt) + IntErrors(materiaId, MsgMateriaParamNotInt))
    case Some(halt) => halt
    case None =>
      if f.Fails(0) then Response(s, ServerError, Error(MsgAverageFailed))
      else
        var ks := GradesOfPair(s.notas, ToInt(alumnoId), ToInt(materiaId));
        if ks == {} then Response(s, NotFound, Error(MsgNoAverage))
        else Response(s, Ok, Http.PairAverage(Average(s.notas[Least(ks)])))
  }

  /** A created row can be read back under the id the response carries. */
  lemma CreateThenGet(s: Store, alumnoId: string, materiaId: string,
                      nota1: Option<real>, nota2: Option<real>, nota3: Option<real>, f: Faults)
    requires Create(s, alumnoId, materiaId, nota1, nota2, nota3, f).status == Created
    ensures
      var r := Create(s, alumnoId, materiaId, nota1, nota2, nota3, f);
      Get(r.store, Show(s.nextNota), NoFault)
        == Response(r.store, Ok, OneNota(s.nextNota, Nota(ToInt(alumnoId), ToInt(materiaId), nota1.value, nota2.value, nota3.value)))
  {
    ShowRoundTrip(s.nextNota);
  }

  /** Deleting the row just created gives back the store it was created in,
      except that the AUTO_INCREMENT counter has moved on. */
  lemma CreateThenDelete(s: Store, alumnoId: string, materiaId: string,
                         nota1: Option<real>, nota2: Option<real>, nota3: Option<real>, f: Faults)
    requires Valid(s)
    requires Create(s, alumnoId, materiaId, nota1, nota2, nota3, f).status == Created
    ensures
      var r := Create(s, alumnoId, materiaId, nota1, nota2, nota3, f);
      var d := Delete(r.store, Show(s.nextNota), NoFault);
      d.status == Ok && d.store == s.(nextNota := s.nextNota + 1)
  {
    ShowRoundTrip(s.nextNota);
    var r := Create(s, alumnoId, materiaId, nota1, nota2, nota3, f);
    var d := Delete(r.store, Show(s.nextNota), NoFault);
    assert s.nextNota !in s.notas;
    assert d.store.notas == s.notas;
  }

  /** Updating a row and reading it back gives the new scores on the old
      student and subject. */
  lemma UpdateThenGet(s: Store, id: string, nota1: Option<real>, nota2: Option<real>, nota3: Option<real>, f: Faults)
    requires Update(s, id, nota1, nota2, nota3, f).status == Ok
    ensures
      var r := Update(s, id, nota1, nota2, nota3, f);
      var old_ := s.notas[ToInt(id)];
      Get(r.store, id, NoFault).body == OneNota(ToInt(id), Nota(old_.alumno, old_.materia, nota1.value, nota2.value, nota3.value))
  {
  }

  /** A create keeps the store well formed: the new score triple was
      validated into the scale, and with foreign keys the insert only
      succeeds when both rows it points at exist. */
  lemma CreatePreservesValid(s: Store, alumnoId: string, materiaId: string,
                             nota1: Option<real>, nota2: Option<real>, nota3: Option<real>, f: Faults)
    requires Valid(s)
    ensures Valid(Create(s, alumnoId, materiaId, nota1, nota2, nota3, f).store)
  {
    var c := Create(s, alumnoId, materiaId, nota1, nota2, nota3, f);
    if c.status == Created {
      assert KeysBelow(c.store.notas, c.store.nextNota);
      assert forall k | k in c.store.notas :: ScoresInScale(c.store.notas[k]);
    }
  }

  /** An update keeps the store well formed: the new scores were validated
      and the row keeps its student and subject. */
  lemma UpdatePreservesValid(s: Store, id: string, nota1: Option<real>, nota2: Option<real>, nota3: Option<real>, f: Faults)
    requires Valid(s)
    ensures Valid(Update(s, id, nota1, nota2, nota3, f).store)
  {
    var u := Update(s, id, nota1, nota2, nota3, f);
    if u.status == Ok {
      assert forall k | k in u.store.notas :: ScoresInScale(u.store.notas[k]);
    }
  }

  /** A delete keeps the store well formed. */
  lemma DeletePreservesValid(s: Store, id: string, f: Faults)
    requires Valid(s)
    ensures Valid(Delete(s, id, f).store)
  {
  }

  /** With every stored score in the scale, the pair average is too. */
  lemma PairAverageInScale(s: Store, alumnoId: string, materiaId: string, f: Faults)
    requires Valid(s)
    requires PairAverage(s, alumnoId, materiaId, f).status == Ok
    ensures
      var b := PairAverage(s, alumnoId, materiaId, f).body;
      b.PairAverage? && InScale(b.promedio)
  {
  }
}

=== FILE: numerals.dfy ===
/** Integer route and body parameters, as express-validator's `isInt()`
    (default options, so leading zeros are allowed) checks them and its
    `toInt()` sanitizer (`parseInt(s, 10)`) converts them. */
module Numerals {
  import opened Base

  predicate IsDigit(c: char) {
    '0' <= c <= '9'
  }

  predicate AllDigits(s: string) {
    forall i | 0 <= i < |s| :: IsDigit(s[i])
  }

  /** `isInt`: the string matches `^[-+]?[0-9]+$`. */
  predicate IsInt(s: string) {
    if |s| > 0 && (s[0] == '-' || s[0] == '+') then |s| > 1 && AllDigits(s[1..])
    else |s| > 0 && AllDigits(s)
  }

  function DigitValue(c: char): (d: nat)
    requires IsDigit(c)
    ensures d < 10
  {
    c as int - '0' as int
  }

  function DigitChar(d: nat): (c: char)
    requires d < 10
    ensures IsDigit(c) && DigitValue(c) == d
  {
    ('0' as int + d) as char
  }

  /** The value of a string of decimal digits, most significant digit first. */
  function DigitsValue(s: string): nat
    requires AllDigits(s)
    decreases |s|
  {
    if s == [] then 0 else DigitsValue(s[..|s| - 1]) * 10 + DigitValue(s[|s| - 1])
  }

  /** `toInt()` on a string `isInt` accepted. */
  function ToInt(s: string): int
    requires IsInt(s)
  {
    if s[0] == '-' then 0 - DigitsValue(s[1..]) as int
    else if s[0] == '+' then DigitsValue(s[1..])
    else DigitsValue(s)
  }

  /** The canonical decimal spelling of a natural number. */
  function NatText(n: nat): (s: string)
    ensures |s| > 0 && AllDigits(s)
    decreases n
  {
    if n < 10 then [DigitChar(n)] else NatText(n / 10) + [DigitChar(n % 10)]
  }

  /** How a client spells an integer id in a URL or a JSON body (`String(n)`). */
  function Show(n: int): string {
    if n < 0 then "-" + NatText(-n) else NatText(n)
  }

  /** A parameter after `isInt().toInt()`: its value, or None when the check fails. */
  function ParseParam(s: string): (r: Option<int>)
    ensures r.Some? <==> IsInt(s)
  {
    if IsInt(s) then Some(ToInt(s)) else None
  }

  /** Reading back the digits of `n` gives `n`. */
  lemma {:induction false} NatTextValue(n: nat)
    ensures DigitsValue(NatText(n)) == n
    decreases n
  {
    if n >= 10 {
      NatTextValue(n / 10);
      var s := NatText(n);
      assert s[..|s| - 1] == NatText(n / 10);
    }
  }

  /** Every id a client writes with `String(n)` passes `isInt` and `toInt`
      gives back the same id. */
  lemma ShowRoundTrip(n: int)
    ensures IsInt(Show(n))
    ensures ParseParam(Show(n)) == Some(n)
  {
    if n < 0 {
      var t := NatText(-n);
      assert Show(n)[1..] == t;
      NatTextValue(-n);
    } else {
      NatTextValue(n);
    }
  }

  /** A leading zero does not change the value: "007" denotes 7. */
  lemma {:induction false} LeadingZero(s: string)
    requires AllDigits(s)
    ensures AllDigits("0" + s)
    ensures DigitsValue("0" + s) == DigitsValue(s)
    decreases |s|
  {
    if s != [] {
      var t := "0" + s;
      assert t[..|t| - 1] == "0" + s[..|s| - 1];
      LeadingZero(s[..|s| - 1]);
    }
  }
}

=== FILE: tables.dfy ===
/** Scans over a table's primary keys. InnoDB returns the rows of a SELECT
    without ORDER BY in primary-key order, so "the first row" of a result
    (`rows[0]` in the handlers) is the row with the least key; aggregates
    such as AVG are sums over a set of keys. */
module Tables {

  /** Some element of a non-empty set. */
  lemma Member(keys: set<int>) returns (x: int)
    requires keys != {}
    ensures x in keys
  {
    if forall y: int :: y !in keys {
      assert false;
    }
    x :| x in keys;
  }

  /** Every non-empty finite set of keys has a least element. */
  lemma {:induction false} LeastExists(keys: set<int>)
    requires keys != {}
    ensures exists k :: k in keys && forall j | j in keys :: k <= j
    decreases |keys|
  {
    var x := Member(keys);
    if keys == {x} {
      assert forall j | j in keys :: x <= j;
    } else {
      var rest := keys - {x};
      LeastExists(rest);
      var m :| m in rest && forall j | j in rest :: m <= j;
      var k := if x < m then x else m;
      assert forall j | j in keys :: j == x || j in rest;
      assert k in keys && forall j | j in keys :: k <= j;
    }
  }

  /** The least key of a non-empty set: the first row of a scan. */
  function Least(keys: set<int>): (k: int)
    requires keys != {}
    ensures k in keys
    ensures forall j | j in keys :: k <= j
  {
    LeastExists(keys);
    var k :| k in keys && forall j | j in keys :: k <= j; k
  }

  /** The sum of `f` over `keys`, accumulated in ascending key order. */
  function Sum(keys: set<int>, f: int -> real): real
    decreases |keys|
  {
    if keys == {} then 0.0
    else
      var k := Least(keys);
      f(k) + Sum(keys - {k}, f)
  }

  /** `n` copies of `x` added up: `x * n` without a multiplication. */
  function Repeat(x: real, n: nat): real {
    if n == 0 then 0.0 else x + Repeat(x, n - 1)
  }

  lemma {:induction false} RepeatIsProduct(x: real, n: nat)
    ensures Repeat(x, n) == x * n as real
  {
    if n > 0 {
      RepeatIsProduct(x, n - 1);
      assert x * n as real == x * (n - 1) as real + x;
    }
  }

  /** A sum of terms that each lie in [lo, hi] lies between n copies of lo
      and n copies of hi. */
  lemma {:induction false} SumBounds(keys: set<int>, f: int -> real, lo: real, hi: real)
    requires forall k | k in keys :: lo <= f(k) <= hi
    ensures Repeat(lo, |keys|) <= Sum(keys, f) <= Repeat(hi, |keys|)
    decreases |keys|
  {
    if keys != {} {
      var k := Least(keys);
      var rest := keys - {k};
      SumBounds(rest, f, lo, hi);
      assert |keys| == |rest| + 1;
    }
  }

  /** The sum only depends on the values of `f` on `keys`. */
  lemma {:induction false} SumCongruent(keys: set<int>, f: int -> real, g: int -> real)
    requires forall k | k in keys :: f(k) == g(k)
    ensures Sum(keys, f) == Sum(keys, g)
    decreases |keys|
  {
    if keys != {} {
      var k := Least(keys);
      SumCongruent(keys - {k}, f, g);
    }
  }

  /** The arithmetic mean of `f` over a non-empty set of keys. */
  function Mean(keys: set<int>, f: int -> real): real
    requires keys != {}
  {
    Sum(keys, f) / |keys| as real
  }

  /** Summing over a single key yields that key's term. */
  lemma SumSingleton(k: int, f: int -> real)
    ensures Sum({k}, f) == f(k)
  {
    assert Least({k}) == k;
    assert {k} - {k} == {};
  }

  /** A mean of values in [lo, hi] lies in [lo, hi]. */
  lemma MeanBounds(keys: set<int>, f: int -> real, lo: real, hi: real)
    requires keys != {}
    requires forall k | k in keys :: lo <= f(k) <= hi
    ensures lo <= Mean(keys, f) <= hi
  {
    SumBounds(keys, f, lo, hi);
    RepeatIsProduct(lo, |keys|);
    RepeatIsProduct(hi, |keys|);
    QuotientBounds(Sum(keys, f), |keys| as real, lo, hi);
  }

  /** Dividing bounds that scale with n by n. */
  lemma QuotientBounds(total: real, n: real, lo: real, hi: real)
    requires n > 0.0
    requires lo * n <= total <= hi * n
    ensures lo <= total / n <= hi
  {
    assert total / n >= (lo * n) / n;
    assert total / n <= (hi * n) / n;
  }
}
